=== FILE: README.md ===
# Mattermost web app: plugin lifecycle, slash commands, trial-ended banner

A Dafny model of three pieces of the Mattermost web app.

- **Web-app plugin lifecycle** (`plugins/index.js`). Bundles register their plugin object
  (`registerPlugin`). Plugins may be switched off (`arePluginsEnabled`). `loadPlugin` appends a
  plugin's script (with the backwards-compatible bundle-path rewrite) and initializes what the
  bundle registers. `removePlugin` tears a plugin down. `initializePlugins` loads everything the
  server lists. `loadPluginsIfNecessary` reconciles the store's manifest table before and after a
  fresh fetch. The module-level mutable state (`loadedPlugins`, `window.plugins`, the plugin
  `<script>` elements) is an immutable `State`. Every operation is a pure function from a state to
  the next state plus the trace of effects it performs, in order: hook calls, store dispatches,
  side-channel deregistrations and DOM changes (modules `Plugins`, `Synchronizer`).
- **`executeCommand`** (`actions/command.ts`). A typed slash command is split at its first space.
  Its command word is lower-cased and the message is normalised, with `/code` keeping its
  indentation. The built-in commands `/search`, `/shortcuts`, `/leave` and `/settings` are answered
  by the client; `/collapse` and `/expand` reset visibility and go on. Everything else goes to the
  server. The server's answer drives logout, the dialog trigger and `goto_location` routing
  (module `Command`).
- **Freemium trial-ended announcement bar**
  (`components/announcement_bar/freemium_trial_ended_announcement_bar/index.tsx`). It has the
  `shouldShowBanner` guard chain, the choice between the two message texts, and the close action
  that saves the hide preference (module `TrialBanner`).

`Text` models the JavaScript string primitives these rely on: `indexOf`, `includes`, `replace`
with a string pattern, `startsWith`, `trim`, `trimEnd` and `toLowerCase`. `Wrappers` holds
`Option`.

Everything the code reads from outside is a parameter:
- the configuration, `getSiteURL()`, the user agent, the current channel and the clock;
- `isUrlSafe` and `AppCommandParser.isAppCommand`;
- the answers of `Client4.getWebappPlugins` and `Client4.executeCommand`;
- how each appended bundle settles (`BundleOutcome`: it ran and possibly registered an object, or
  its script failed to load).

## Behaviour of the code worth knowing

- `loadPlugin` records the manifest in `loadedPlugins` at the moment it appends the script
  (`plugins/index.js:181`), before the bundle has loaded. A bundle whose script fails to load
  therefore stays recorded, and loading the same manifest again does nothing
  (`Plugins.FailedLoadIsNotRetried`).
- On an upgrade, `loadPlugin` dispatches `removeWebappPlugin` with the NEW manifest
  (`plugins/index.js:131-134`) and does not call `removePlugin`. The old script element stays in
  the document. The old object's `uninitialize` runs only when the new bundle calls
  `registerPlugin`.
- After an upgrade two script elements carry the plugin's DOM id. `removePlugin` detaches only the
  first one `getElementById` finds, so a script element outlives the plugin
  (`Plugins.UpgradeThenRemoveLeavesScript`).
- `removePlugin` leaves the object in `window.plugins`.
- `loadPluginsIfNecessary` decides what to reload by `version` (`plugins/index.js:251`), while
  `loadPlugin` short-circuits on `bundle_path` (`plugins/index.js:126`). A version bump that keeps
  its bundle path is therefore not reloaded (`Plugins.VersionBumpSamePathIsNoop`).

## Model

| member | source | states |
|---|---|---|
| Text.IndexOf | actions/command.ts:47-50 | -1 exactly when the pattern does not occur; otherwise the pattern occurs there and nowhere earlier |
| Text.Trim | actions/command.ts:55 | the result is a middle slice of the input with only whitespace cut off before and after it; it has no whitespace at either end, is empty exactly when the input is all whitespace, and an already trimmed input comes back unchanged |
| Text.TrimEnd | actions/command.ts:53 | the result is a prefix of the input, everything cut off is whitespace, and the result does not end in whitespace |
| Text.ToLower | actions/command.ts:51 | the same length; every ASCII capital lower-cased and every other character kept |
| Text.ReplaceFirst | plugins/index.js:168 | for a replacement without `$`: without an occurrence the text is unchanged; otherwise only the first occurrence is replaced, everything around it kept |
| Plugins.RegisterPlugin | plugins/index.js:41-49 | the id maps to the new object and every other id keeps its object; exactly one `uninitialize` of the previous object happens iff one was registered and defines the hook; `loadedPlugins` and scripts are untouched |
| Plugins.ArePluginsEnabled | plugins/index.js:52-65 | plugins are on only when the server setting is exactly "true" and performance debugging and the disable preference are not both on; the converse and the consequences are stated by `Synchronizer.DisabledIsInert` |
| Plugins.RewriteBundlePath | plugins/index.js:165-169 | paths without `/static/`, and paths already under `/static/plugins/`, are unchanged; the result contains `/static/plugins/` iff the input contains `/static/` |
| Plugins.RewriteIdempotent | plugins/index.js:165-169 | rewriting an already rewritten path changes nothing |
| Plugins.RewriteInsertsAfterFirstStatic | plugins/index.js:166-169 | when the rewrite applies it inserts `plugins/` right after the first `/static/` and keeps every other character in order |
| Plugins.ScriptIdInjective | plugins/index.js:174 | distinct plugin ids give distinct script element ids |
| Plugins.ScriptFor | plugins/index.js:173-176 | the script id is `plugin_` plus the plugin id; the src is the site URL followed by the rewritten bundle path |
| Plugins.LoadPlugin | plugins/index.js:118-181 | when disabled or when the same bundle path is recorded: no change and no effect. Otherwise the manifest is recorded and one script appended. An upgrade first dispatches `removeWebappPlugin` with the new manifest. The registered objects are untouched |
| Plugins.LoadPluginTwiceIsNoop | plugins/index.js:124-129 | loading a manifest again right after loading it does nothing |
| Plugins.VersionBumpSamePathIsNoop | plugins/index.js:125-129 | a recorded manifest with the same bundle path but another version is not reloaded, and the old version stays recorded |
| Plugins.InitializePlugin | plugins/index.js:187-196 | exactly one `initialize` of the registered object iff one is registered under the id and defines the hook |
| Plugins.SettleLoad | plugins/index.js:136-163 | settling never changes the recorded manifests or scripts. A failed script logs only "Unable to load bundle for plugin <id>, version <version>". A bundle that registers an object leaves it registered, and its trace is the registration's (the old object's `uninitialize`) followed by `initializePlugin`'s, so an old `uninitialize` always comes before the new `initialize`. A bundle that registers nothing initializes whatever object is already registered under the id |
| Plugins.FailedLoadIsNotRetried | plugins/index.js:161-181 | after a failed load, loading the same manifest again does nothing |
| Plugins.FreshLoadInitializes | plugins/index.js:136-181 | a fresh load of a bundle that registers an initializable object appends its script and then initializes it, and nothing else |
| Plugins.FirstScript | plugins/index.js:223 | the index of the first script element with the given id, or -1 when there is none |
| Plugins.DetachFirst | plugins/index.js:223-227 | without a matching element the scripts are unchanged; otherwise exactly the first matching element is removed |
| Plugins.RemovePlugin | plugins/index.js:201-229 | an unrecorded id is a no-op; otherwise exactly that id is forgotten, `window.plugins` is kept, the first script element with its DOM id is detached, and the store is told first |
| Plugins.RemovePluginOrdering | plugins/index.js:209-227 | `removeWebappPlugin` first; at most one teardown hook, before the deregistrations; the four deregistrations once each, in the source's order, as one block; the script removal last and present iff a script element exists; five events plus one for a hook and one for a script, and nothing else |
| Plugins.RemovePluginHookChoice | plugins/index.js:211-218 | `uninitialize` when the object defines it and then no `deinitialize`; otherwise `deinitialize` when defined; otherwise no hook at all |
| Plugins.LoadPluginKeepsScriptsCoverLoaded | plugins/index.js:173-181 | loading keeps every recorded plugin backed by a script element |
| Plugins.RemovePluginKeepsScriptsCoverLoaded | plugins/index.js:201-229 | removing keeps every remaining recorded plugin backed by a script element |
| Plugins.RegisterKeepsScriptsCoverLoaded | plugins/index.js:41-49 | registration keeps every recorded plugin backed by a script element |
| Plugins.SettleKeepsScriptsCoverLoaded | plugins/index.js:136-163 | the completion of a load, successful or not, keeps every recorded plugin backed by a script element |
| Plugins.UpgradeThenRemoveLeavesScript | plugins/index.js:131-229 | after an upgrade and a removal the plugin is no longer recorded, but a script element with its DOM id remains and the registered objects are unchanged |
| Synchronizer.Lookup | plugins/index.js:250 | the entry found has the asked id and is in the table; none is found iff no entry has that id |
| Synchronizer.ToLoad | plugins/index.js:249-256 | exactly the new entries that are absent from the old table or carry another version |
| Synchronizer.ToRemove | plugins/index.js:259-264 | exactly the old entries whose id the new table lacks |
| Synchronizer.Diff | plugins/index.js:248-264 | both iff's above; no id both loaded and removed; an entry unchanged since the old table is not loaded; an empty new table removes every old entry and loads nothing |
| Synchronizer.SameTableIsQuiet | plugins/index.js:248-264 | reconciling a table against itself loads and removes nothing |
| Synchronizer.DiffOfVersionBump | plugins/index.js:249-256 | going from [A@v1, B@v1] to [A@v2, B@v1] loads only A@v2 and removes nothing |
| Synchronizer.LoadEach | plugins/index.js:249-256 | starting loads in turn records every listed id when enabled, keeps the other recorded entries, never touches the registered objects, and only dispatches removals and appends scripts |
| Synchronizer.LoadPluginFrame | plugins/index.js:118-181 | one load only adds or replaces its own id in `loadedPlugins` |
| Synchronizer.LoadEachAppendsFresh | plugins/index.js:83-84 | when plugins are on, the first manifest of each id that is not already loaded with the same bundle path has its script appended and will settle |
| Synchronizer.RemoveEach | plugins/index.js:259-264 | removing in turn forgets exactly the listed ids, keeps every other recorded manifest, and leaves the registered objects alone |
| Synchronizer.SettleEach | plugins/index.js:83-87 | settling any number of loads changes neither the recorded manifests nor the scripts, and only registers, initializes or logs; every bundle that fails to load has its error logged, and every registered object with an `initialize` hook is initialized |
| Synchronizer.InitializePlugins | plugins/index.js:68-90 | disabled: nothing happens. Fetch error, null or empty list: no state change and no telemetry. Otherwise every listed plugin is recorded, every previously recorded plugin stays recorded and no other id is added, the received list is dispatched first, every freshly appended bundle that fails has its error logged and every object a fresh bundle registers with an `initialize` hook is initialized, all before the telemetry, which is sent exactly once, last |
| Synchronizer.LoadAndSettle | plugins/index.js:83-87 | starting every load and letting the appended bundles settle records every listed id, keeps every previously recorded id, adds no other id, and sends no telemetry |
| Synchronizer.FreshBundlesSettle | plugins/index.js:83-87 | inside the `Promise.all`, the first manifest of each id not already loaded with the same bundle path has its load failure logged, or the `initialize` hook of the object its bundle registers run |
| Synchronizer.LoadPluginsIfNecessary | plugins/index.js:233-265 | the received list is dispatched first; every new or re-versioned entry ends up recorded; every entry the fetched list dropped ends up forgotten; every other recorded plugin stays recorded, and one that no loaded or dropped entry carries keeps its manifest; nothing else is added, and the registered objects are untouched |
| Synchronizer.EmptyListRemovesAll | plugins/index.js:246-264 | reconciling against an empty list forgets every plugin of the old table and appends no script |
| Synchronizer.LoadEachKeepsScriptsCoverLoaded | plugins/index.js:249-256 | a batch of loads keeps every recorded plugin backed by a script element |
| Synchronizer.RemoveEachKeepsScriptsCoverLoaded | plugins/index.js:259-264 | a batch of removals keeps every remaining recorded plugin backed by a script element |
| Synchronizer.BatchesKeepScriptsCoverLoaded | plugins/index.js:68-265 | `initializePlugins` and `loadPluginsIfNecessary` keep every recorded plugin backed by a script element, whatever the fetch yields and however bundles settle |
| Synchronizer.DisabledIsInert | plugins/index.js:52-65 | plugins are off iff the setting is not "true" or performance debugging and the disable preference are both on; then loading, initializing and reconciling do nothing |
| Command.CommandLength | actions/command.ts:47-50 | the end of the command word: no space before it, and a space at it unless it is the end of the message |
| Command.Normalize | actions/command.ts:45-56 | the command is the lower-cased text before the first space (the whole text without one), so it has no space; the message is the command, one space and the rest trimmed at both ends, or for `/code` at the end only |
| Command.NormalizeWordAndArgument | actions/command.ts:47-56 | for a word, a space and an argument: the command is the lower-cased word; the message is the command, a space and the trimmed argument, except for `/code`, whose argument keeps its leading whitespace (plus the separator) and loses only trailing whitespace |
| Command.NormalizeBareCommand | actions/command.ts:47-56 | a message without a space is all command, and its message is the command and one space |
| Command.NormalizeIdempotent | actions/command.ts:51-56 | normalising a normalised message changes nothing, for every command but `/code` |
| Command.CodeMessage | actions/command.ts:52-53 | `/code` with an argument that is not all whitespace keeps the separating space and the argument's indentation, and loses only its trailing whitespace |
| Command.CodeNormalizationGrows | actions/command.ts:52-53 | normalising a `/code` message whose argument has no trailing whitespace inserts one more space, so a normalised `/code` message with a non-blank argument is never normalised to itself; a bare "/code " normalises to itself |
| Command.SubstringFrom | actions/command.ts:60 | the text after the given position, empty past the end |
| Command.LeaveDirectOrGroup | actions/command.ts:81-106 | a redirect to the team's redirect channel, then "false" stored under the direct-channel category keyed by the teammate or the group category keyed by the channel, then an unfavourite of the channel iff it is a favourite, and nothing else |
| Command.ClientOutcomeOf | actions/command.ts:58-116 | only `/search`, `/shortcuts`, `/leave` and `/settings` can be answered by the client; `/settings` opens the user settings modal; `/shortcuts` fails on mobile and opens the shortcuts modal elsewhere, and that is the only failure; `/collapse` and `/expand` reset visibility and go on; every other command goes on untouched; the client never calls the server |
| Command.RouteGoto | actions/command.ts:186-194 | a path starting with `/` is pushed as is; a URL on this site is pushed with the site URL removed, which together give back the URL; anything else is opened in a new window |
| Command.ServerOutcome | actions/command.ts:168-196 | a server error is returned as the error. A trimmed `/logout` logs out towards the safe `goto_location` or "/". Otherwise the result is success, the dialog trigger id is dispatched when present, and then the safe `goto_location`, if any, is routed as `RouteGoto` says |
| Command.ExecuteCommand | actions/command.ts:41-197 | the server is asked iff the client did not answer and the apps framework did not take the message. Apps take it iff enabled and claiming it. A handled command returns the client's effects and result. Otherwise the trace is the client's effects, the server call, then what the server's answer leads to, with its result; a server error is returned as the error |
| Command.SearchUsesTrimmedArgument | actions/command.ts:59-61 | `/search` in any letter case searches for exactly the trimmed argument and succeeds, with nothing else happening |
| Command.ShortcutsDependOnAgent | actions/command.ts:62-69 | `/shortcuts` fails with "Keyboard shortcuts are not supported on your device" on mobile and opens nothing; elsewhere it opens the shortcuts modal |
| Command.SettingsOpensModal | actions/command.ts:109-111 | `/settings` in any letter case opens the user settings modal and succeeds, with nothing else happening |
| Command.LeaveClientOutcome | actions/command.ts:70-108 | the four cases of `/leave`: reply thread, private channel, direct or group channel, anything else |
| Command.LeaveOutcome | actions/command.ts:70-106 | `/leave` in a reply thread posts the "not supported" ephemeral message; in a private channel it opens the leave modal; in a direct or group channel it redirects and hides it; none of these asks the server |
| Command.LeaveElsewhereGoesOn | actions/command.ts:76-107 | `/leave` in an open channel or without a current channel goes on to the apps framework or the server |
| Command.CollapseExpandFallThrough | actions/command.ts:112-116 | `/collapse` and `/expand` reset embed and inline-image visibility and then still go to the apps framework or, right after, the server |
| Command.LogoutRedirect | actions/command.ts:175-180 | `/logout` in any case with only whitespace after it logs out towards the safe `goto_location`, or "/" without one, right after the server call, and routes nowhere |
| Command.LogoutNormalizes | actions/command.ts:47-56 | `/logout` in any case with only whitespace after it normalises to `/logout ` and trims to `/logout` |
| Command.LogoutServerOutcome | actions/command.ts:175-180 | whenever the trimmed message is `/logout`, the server's answer only logs out, towards the safe `goto_location` or "/" |
| Command.LogoutWithArgumentIsNotLogout | actions/command.ts:177 | `/logout` followed by anything but whitespace is not treated as a logout |
| Command.JoinIsTrimmed | actions/command.ts:55 | a command followed by a space and a trimmed non-empty argument is already trimmed |
| TrialBanner.ShouldShowBanner | components/announcement_bar/freemium_trial_ended_announcement_bar/index.tsx:37-70 | the banner shows only for an admin with a subscription that is not a free trial and has a recorded trial end, with limits and preferences loaded; the full condition is stated by `ShowIffAllGuardsPass` |
| TrialBanner.ShowIffAllGuardsPass | components/announcement_bar/freemium_trial_ended_announcement_bar/index.tsx:37-70 | shown iff every guard passes: a subscription, loaded limits and preferences exist; no hide preference is "true"; not a free trial; trial end recorded and not in the future; the user is an admin |
| TrialBanner.Close | components/announcement_bar/freemium_trial_ended_announcement_bar/index.tsx:76-87 | the hide preference is stored with value "true"; every other preference is kept and nothing else is added |
| TrialBanner.CloseIsSticky | components/announcement_bar/freemium_trial_ended_announcement_bar/index.tsx:49-51 | after closing, the banner stays hidden whatever the subscription, limits, clock or role |
| TrialBanner.Render | components/announcement_bar/freemium_trial_ended_announcement_bar/index.tsx:72-96 | something renders iff the banner should show; the archived-data text iff additionally some usage delta is negative, the premium-features text otherwise |

## Left out

- The module-federation body of the script's load handler (`__webpack_init_sharing__`,
  `container.init`, the dynamic `get`) is foreign runtime code. Only its outcome is modelled
  (`BundleOutcome`): the bundle registers an object or not, then `initializePlugin` runs.
- The hang when that body throws (the promise then never settles) is not modelled: a bundle that
  executes always settles.
- DOM calls, the `Client4` HTTP calls, Redux `dispatch` and the reducers, console logging and
  telemetry internals are effects in the trace or inputs, not behaviour.
- The reducer for the received plugin list is not part of this model. The store's table after a
  fetch is taken to be the fetched list (null read as empty), in list order.
- Promise timing is left out, and so is the race between overlapping reconciliations.
  - `InitializePlugins` settles the appended bundles in list order. The code settles them in
    whatever order the scripts load.
  - `LoadPluginsIfNecessary` ends when the synchronous parts of its loads and its removals have
    run. The later completion of those loads is `SettleLoad`, applied by whoever observes it.
  - When plugins are switched off, `loadPlugin` returns a promise that never settles; the model
    just returns with no effect.
- The apps-framework branch of `executeCommand` (`actions/command.ts:118-166`) delegates to
  `AppCommandParser` and `doAppSubmit`, which are not part of this model. The model stops at the
  hand-over (`DelegatedToApps`).
- Unicode: `toLowerCase` lower-cases ASCII letters only. Full Unicode lower-casing can change a
  string's length, and with it the `/search` offset. `trim` uses ECMAScript's whitespace and line
  terminator set exactly.
- `TrialBanner.HideName`: the value of `CloudBanners.HIDE` lives in `utils/constants`, which is
  not part of this model. The model uses "hide".
- The `savePreferences` reducer is not part of this model; `Close` assumes the saved preference
  replaces one of the same name.
- `trial_end_at` is an integer number of seconds. JavaScript's `Date` range limit is modelled:
  an end beyond ±8.64e15 ms is an invalid date, which compares false. Fractional seconds and
  floating-point rounding are not modelled.
- Synchronizer.InitializePlugins: states the first and last effects, that every plugin is
  recorded, and that every fresh bundle's failure is logged or its registered object initialized
  before the telemetry. It does not state the order of the individual load and settle effects
  between them, nor what happens for a second manifest with an id already in the list.
- Synchronizer.LoadPluginsIfNecessary: states the first dispatch and which ids end up recorded,
  forgotten or untouched. It does not state the effects after the dispatch (the loads' and
  removals' traces), nor which manifest a loaded or re-loaded id ends up holding.
- Not part of this model, because they hold no logic of their own:
  - `components/channel_members_rhs/member.tsx` (rendering);
  - `components/admin_console/data_retention_settings/team_list/index.ts` (a container over
    helpers that are not part of this model);
  - the end-to-end and snapshot tests.

=== FILE: command.dfy ===
/**
 * `executeCommand` of actions/command.ts: how a typed slash command is split and normalised,
 * which built-in commands the client answers itself, and what it does with the server's answer
 * (logout, dialog trigger, `goto_location` routing).
 *
 * Everything the action reads from the store or the browser (the current channel, whether the
 * agent is mobile, whether apps are enabled, `isUrlSafe`, `getSiteURL()`) is a parameter.
 */
module Command {
  import opened Wrappers
  import opened Text

  // ---------------------------------------------------------------------------------------------
  // Splitting and normalising

  /** The command word (lower-cased), the normalised message, and where the word ended. */
  datatype Normalized = Normalized(cmd: string, msg: string, cmdLength: nat)

  lemma NoSpaceBefore(s: string, n: int)
    requires 0 <= n <= |s|
    requires forall j :: 0 <= j < n ==> !OccursAt(s, " ", j)
    ensures ' ' !in s[..n]
  {
    forall j | 0 <= j < n
      ensures s[..n][j] != ' '
    {
      SpaceAt(s, j);
    }
  }

  /** `msg.indexOf(' ')`, or the whole length when there is no space. */
  function CommandLength(message: string): (n: nat)
    ensures n <= |message|
    ensures ' ' !in message[..n]
    ensures n < |message| ==> message[n] == ' '
  {
    var i := IndexOf(message, " ");
    if i < 0 then
      NoSpaceBefore(message, |message|);
      assert message[..|message|] == message;
      |message|
    else
      NoSpaceBefore(message, i);
      SpaceAt(message, i);
      i
  }

  /**
   * The first lines of `executeCommand`: the command is the lower-cased text up to the first space;
   * the message becomes the command, one space, and the rest of the text trimmed at both ends, except
   * for `/code`, whose rest (which still begins with the separating space) is trimmed at the end only.
   */
  function Normalize(message: string): (r: Normalized)
    ensures r.cmdLength == |r.cmd| <= |message|
    ensures ' ' !in r.cmd
    ensures ToLower(r.cmd) == r.cmd
    ensures StartsWith(r.msg, r.cmd + " ")
    ensures r.cmdLength <= |message| && ' ' !in message[..r.cmdLength]
    ensures r.cmdLength < |message| ==> message[r.cmdLength] == ' '
    ensures r.cmd == ToLower(message[..r.cmdLength])
    ensures r.cmd != "/code" ==> r.msg == r.cmd + " " + Trim(message[r.cmdLength..])
    ensures r.cmd == "/code" ==> r.msg == r.cmd + " " + TrimEnd(message[r.cmdLength..])
  {
    var n := CommandLength(message);
    var cmd := ToLower(message[..n]);
    ToLowerKeepsSpaces(message[..n]);
    ToLowerIdempotent(message[..n]);
    Normalized(cmd, Rejoin(cmd, message[n..]), n)
  }

  /** The normalised message: the command, a space, and the rest trimmed (`/code`: at the end only). */
  function Rejoin(cmd: string, rest: string): (msg: string)
    ensures StartsWith(msg, cmd + " ")
  {
    var msg := if cmd == "/code" then cmd + " " + TrimEnd(rest) else cmd + " " + Trim(rest);
    assert msg[..|cmd + " "|] == cmd + " ";
    msg
  }

  /**
   * A command word followed by a space and an argument: the command is the word lower-cased and,
   * for every command but `/code`, the message is that command, one space and the trimmed argument.
   */
  lemma NormalizeWordAndArgument(word: string, arg: string)
    requires ' ' !in word
    ensures var r := Normalize(word + " " + arg);
            && r.cmd == ToLower(word)
            && r.cmdLength == |word|
            && (r.cmd != "/code" ==> r.msg == ToLower(word) + " " + Trim(arg))
            && (r.cmd == "/code" && !AllWhitespace(arg) ==> r.msg == r.cmd + " " + " " + TrimEnd(arg))
            && (r.cmd == "/code" && AllWhitespace(arg) ==> r.msg == r.cmd + " ")
  {
    SplitAtSeparator(word, arg);
    RejoinAfterSeparator(ToLower(word), arg);
  }

  lemma RejoinAfterSeparator(cmd: string, arg: string)
    ensures cmd != "/code" ==> Rejoin(cmd, " " + arg) == cmd + " " + Trim(arg)
    ensures cmd == "/code" && !AllWhitespace(arg) ==> Rejoin(cmd, " " + arg) == cmd + " " + " " + TrimEnd(arg)
    ensures cmd == "/code" && AllWhitespace(arg) ==> Rejoin(cmd, " " + arg) == cmd + " "
  {
    if cmd != "/code" {
      TrimSkipsWhitespace(" ", arg);
    } else if !AllWhitespace(arg) {
      TrimEndKeepsHead(" ", arg);
      assert cmd + " " + (" " + TrimEnd(arg)) == cmd + " " + " " + TrimEnd(arg);
    } else {
      TrimEndAllWhitespace(" " + arg);
    }
  }

  lemma SplitAtSeparator(word: string, arg: string)
    requires ' ' !in word
    ensures CommandLength(word + " " + arg) == |word|
    ensures (word + " " + arg)[..|word|] == word
    ensures (word + " " + arg)[|word|..] == " " + arg
  {
    IndexOfSeparator(word, arg);
  }

  /** A message without any space is all command: the argument is empty. */
  lemma NormalizeBareCommand(word: string)
    requires ' ' !in word
    ensures Normalize(word) == Normalized(ToLower(word), ToLower(word) + " ", |word|)
  {
    var i := IndexOf(word, " ");
    if i >= 0 {
      SpaceAt(word, i);
    }
    assert word[..|word|] == word;
    assert word[|word|..] == [];
  }

  /**
   * Normalising an already normalised message changes nothing, for every command but `/code`.
   */
  lemma NormalizeIdempotent(word: string, arg: string)
    requires ' ' !in word && ToLower(word) != "/code"
    ensures var m := Normalize(word + " " + arg).msg;
            Normalize(m).msg == m
  {
    ArgumentMessage(word, arg);
    var c := ToLower(word);
    ToLowerIdempotent(word);
    assert ' ' !in c by { ToLowerKeepsSpaces(word); }
    ArgumentMessage(c, Trim(arg));
    TrimIdempotent(arg);
  }

  /**
   * A normalised `/code` message with a non-blank argument is never normalised to itself: for a
   * `/code` message whose argument has no trailing whitespace (every normalised `/code` message with
   * a non-blank argument, by `CodeMessage`), normalising inserts one more space after the command,
   * so `/code x` becomes `/code  x`, then `/code   x`. A bare "/code " is left as it is.
   */
  lemma CodeNormalizationGrows(c: string, a: string)
    requires c == "/code" && ToLower(c) == c && !AllWhitespace(a) && TrimEnd(a) == a
    ensures Normalize(c + " " + a).msg == c + " " + (" " + a)
  {
    assert ' ' !in c;
    CodeMessage(c, a);
  }

  /** The normalised message of `/code` and an argument that is not all whitespace. */
  lemma CodeMessage(word: string, arg: string)
    requires ' ' !in word && ToLower(word) == "/code" && !AllWhitespace(arg)
    ensures Normalize(word + " " + arg).msg == ToLower(word) + " " + " " + TrimEnd(arg)
    ensures !AllWhitespace(" " + TrimEnd(arg)) && TrimEnd(" " + TrimEnd(arg)) == " " + TrimEnd(arg)
  {
    NormalizeWordAndArgument(word, arg);
    SpaceBeforeEndTrimmed(arg);
  }

  lemma SpaceBeforeEndTrimmed(arg: string)
    requires !AllWhitespace(arg)
    ensures !AllWhitespace(" " + TrimEnd(arg))
    ensures TrimEnd(" " + TrimEnd(arg)) == " " + TrimEnd(arg)
  {
    var t := TrimEnd(arg);
    var a2 := " " + t;
    assert a2[|a2| - 1] == t[|t| - 1];
  }

  // ---------------------------------------------------------------------------------------------
  // Built-in commands

  datatype ChannelType = OpenChannel | PrivateChannel | DirectChannel | GroupChannel

  /**
   * The current channel. `teammateId` is what `getUserIdFromChannelName` yields for it
   * (the other member of a direct channel).
   */
  datatype Channel = Channel(id: string, kind: ChannelType, teammateId: string)

  /** What `executeCommand` reads from its arguments, the store and the browser. */
  datatype Context = Context(
    isMobile: bool,
    channelId: string,
    rootId: string,
    currentChannel: Option<Channel>,
    currentUserId: string,
    teamUrl: string,
    redirectChannel: string,
    isFavorite: bool,
    appsEnabled: bool)

  /** The preference categories that hide a direct or group channel from the sidebar. */
  datatype PreferenceCategory = DirectChannelShow | GroupChannelShow

  datatype Effect =
    | SearchForTerm(term: string)
    | OpenKeyboardShortcutsModal
    | OpenUserSettingsModal
    | OpenLeavePrivateChannelModal(channel: Channel)
    | SendEphemeralPost(text: string, channelId: string, rootId: string)
    | PushHistory(path: string)
    | OpenWindow(url: string)
    | SavePreference(userId: string, category: PreferenceCategory, name: string, value: string)
    | UnfavoriteChannel(channelId: string)
    | ResetEmbedVisibility
    | ResetInlineImageVisibility
    | ExecuteOnServer(msg: string)
    | ReceivedDialogTriggerId(triggerId: string)
    | EmitUserLoggedOut(redirectTo: string)

  /** `{data: true}` or `{error}`. */
  datatype Result = Done | Failed(message: string)

  /** The client either answers the command itself or goes on to apps and the server. */
  datatype ClientOutcome = Handled(effects: seq<Effect>, result: Result) | Continue(effects: seq<Effect>)

  const ShortcutsNotSupported: string := "Keyboard shortcuts are not supported on your device"
  const LeaveNotSupportedInThreads: string :=
    "/leave is not supported in reply threads. Use it in the center channel instead."

  /** The commands the client answers itself in at least one situation. */
  predicate IsClientCommand(cmd: string) {
    cmd == "/search" || cmd == "/shortcuts" || cmd == "/leave" || cmd == "/settings"
  }

  /** `msg.substring(start, msg.length)` for a start that is not negative. */
  function SubstringFrom(s: string, start: nat): (r: string)
    ensures start <= |s| ==> s == s[..start] + r
    ensures start >= |s| ==> r == []
  {
    if start >= |s| then [] else s[start..]
  }

  /** `/leave` in a direct or group channel: go to the team's redirect channel and hide this one. */
  function LeaveDirectOrGroup(ctx: Context, channel: Channel): (effects: seq<Effect>)
    requires channel.kind == DirectChannel || channel.kind == GroupChannel
    ensures |effects| >= 2
    ensures effects[0] == PushHistory(ctx.teamUrl + "/channels/" + ctx.redirectChannel)
    ensures effects[1].SavePreference? && effects[1].value == "false" && effects[1].userId == ctx.currentUserId
    ensures channel.kind == DirectChannel ==> effects[1].category == DirectChannelShow && effects[1].name == channel.teammateId
    ensures channel.kind == GroupChannel ==> effects[1].category == GroupChannelShow && effects[1].name == channel.id
    ensures |effects| == 3 <==> ctx.isFavorite
    ensures effects[2..] == (if ctx.isFavorite then [UnfavoriteChannel(channel.id)] else [])
  {
    var (name, category) :=
      if channel.kind == DirectChannel then (channel.teammateId, DirectChannelShow)
      else (channel.id, GroupChannelShow);
    [PushHistory(ctx.teamUrl + "/channels/" + ctx.redirectChannel),
     SavePreference(ctx.currentUserId, category, name, "false")]
    + (if ctx.isFavorite then [UnfavoriteChannel(channel.id)] else [])
  }

  /** The `switch (cmd)` of `executeCommand`. */
  function ClientOutcomeOf(n: Normalized, ctx: Context): (r: ClientOutcome)
    ensures r.Handled? ==> IsClientCommand(n.cmd)
    ensures r.Handled? && r.result.Failed? ==> n.cmd == "/shortcuts" && ctx.isMobile && r.effects == []
    ensures !IsClientCommand(n.cmd) && n.cmd != "/collapse" && n.cmd != "/expand" ==> r == Continue([])
    ensures n.cmd == "/collapse" || n.cmd == "/expand" ==> r == Continue([ResetEmbedVisibility, ResetInlineImageVisibility])
    ensures r.Continue? && r.effects != [] ==> n.cmd == "/collapse" || n.cmd == "/expand"
    ensures forall e :: e in r.effects ==> !e.ExecuteOnServer?
    ensures n.cmd == "/settings" ==> r == Handled([OpenUserSettingsModal], Done)
    ensures n.cmd == "/shortcuts" && ctx.isMobile ==> r == Handled([], Failed(ShortcutsNotSupported))
    ensures n.cmd == "/shortcuts" && !ctx.isMobile ==> r == Handled([OpenKeyboardShortcutsModal], Done)
  {
    match n.cmd
    case "/search" => Handled([SearchForTerm(SubstringFrom(n.msg, n.cmdLength + 1))], Done)
    case "/shortcuts" =>
      if ctx.isMobile then Handled([], Failed(ShortcutsNotSupported))
      else Handled([OpenKeyboardShortcutsModal], Done)
    case "/leave" =>
      if ctx.channelId != "" && ctx.rootId != "" then
        Handled([SendEphemeralPost(LeaveNotSupportedInThreads, ctx.channelId, ctx.rootId)], Done)
      else if ctx.currentChannel.Some? && ctx.currentChannel.value.kind == PrivateChannel then
        Handled([OpenLeavePrivateChannelModal(ctx.currentChannel.value)], Done)
      else if ctx.currentChannel.Some? && ctx.currentChannel.value.kind in {DirectChannel, GroupChannel} then
        Handled(LeaveDirectOrGroup(ctx, ctx.currentChannel.value), Done)
      else Continue([])
    case "/settings" => Handled([OpenUserSettingsModal], Done)
    case "/collapse" => Continue([ResetEmbedVisibility, ResetInlineImageVisibility])
    case "/expand" => Continue([ResetEmbedVisibility, ResetInlineImageVisibility])
    case _ => Continue([])
  }

  // ---------------------------------------------------------------------------------------------
  // The server's answer

  /** What `Client4.executeCommand` yields: an error, or `goto_location` and `trigger_id` ("" when absent). */
  datatype ServerReply = ServerError(message: string) | ServerData(gotoLocation: string, triggerId: string)

  /**
   * Where a safe `goto_location` leads: an app-relative path is pushed as is, a URL on this site is
   * pushed with the site URL cut off, anything else is opened in a new window.
   */
  function RouteGoto(loc: string, siteURL: string): (e: Effect)
    ensures e.PushHistory? || e.OpenWindow?
    ensures StartsWith(loc, "/") ==> e == PushHistory(loc)
    ensures e.PushHistory? && !StartsWith(loc, "/") ==> StartsWith(loc, siteURL) && siteURL + e.path == loc
    ensures e.OpenWindow? <==> !StartsWith(loc, "/") && !StartsWith(loc, siteURL)
    ensures e.OpenWindow? ==> e.url == loc
  {
    if StartsWith(loc, "/") then PushHistory(loc)
    else if StartsWith(loc, siteURL) then
      assert loc == loc[..|siteURL|] + loc[|siteURL|..];
      PushHistory(loc[|siteURL|..])
    else OpenWindow(loc)
  }

  /** `goto_location` is present and `isUrlSafe` accepts it. */
  predicate HasGotoLocation(reply: ServerReply, isUrlSafe: string -> bool) {
    reply.ServerData? && reply.gotoLocation != "" && isUrlSafe(reply.gotoLocation)
  }

  /** The part of `executeCommand` after the server answered: logout, dialog trigger, routing. */
  function ServerOutcome(msg: string, reply: ServerReply, isUrlSafe: string -> bool, siteURL: string): (r: (seq<Effect>, Result))
    ensures reply.ServerError? ==> r == ([], Failed(reply.message))
    ensures reply.ServerData? && Trim(msg) == "/logout" ==>
              r.1 == Done && |r.0| == 1 && r.0[0].EmitUserLoggedOut?
              && r.0[0].redirectTo == (if HasGotoLocation(reply, isUrlSafe) then reply.gotoLocation else "/")
    ensures reply.ServerData? && Trim(msg) != "/logout" ==>
              && r.1 == Done
              && |r.0| <= 2
              && (forall e :: e in r.0 ==> e.ReceivedDialogTriggerId? || e.PushHistory? || e.OpenWindow?)
              && (HasGotoLocation(reply, isUrlSafe) <==> (exists e :: e in r.0 && (e.PushHistory? || e.OpenWindow?)))
    ensures reply.ServerData? && Trim(msg) != "/logout" ==>
              r.0 == (if reply.triggerId != "" then [ReceivedDialogTriggerId(reply.triggerId)] else [])
                     + (if HasGotoLocation(reply, isUrlSafe) then [RouteGoto(reply.gotoLocation, siteURL)] else [])
  {
    match reply
    case ServerError(message) => ([], Failed(message))
    case ServerData(loc, trigger) =>
      var hasGoto := HasGotoLocation(reply, isUrlSafe);
      if Trim(msg) == "/logout" then
        ([EmitUserLoggedOut(if hasGoto then loc else "/")], Done)
      else
        var dialog := if trigger != "" then [ReceivedDialogTriggerId(trigger)] else [];
        var route := if hasGoto then [RouteGoto(loc, siteURL)] else [];
        assert hasGoto ==> RouteGoto(loc, siteURL) in dialog + route;
        (dialog + route, Done)
  }

  // ---------------------------------------------------------------------------------------------
  // executeCommand

  /** The result of `executeCommand`, or the hand-over to the apps framework. */
  datatype Execution = Execution(effects: seq<Effect>, result: Result) | DelegatedToApps(effects: seq<Effect>)

  /**
   * `executeCommand(message, args)`. `isAppCommand` is `AppCommandParser.isAppCommand`; when apps are
   * enabled and it claims the message the apps framework takes over. Otherwise the normalised
   * message goes to the server and its reply is acted on.
   */
  function ExecuteCommand(message: string, ctx: Context, isAppCommand: string -> bool, reply: ServerReply,
                          isUrlSafe: string -> bool, siteURL: string): (r: Execution)
    ensures var n := Normalize(message);
            && (ExecuteOnServer(n.msg) in r.effects ==> r.Execution? && !ClientOutcomeOf(n, ctx).Handled?)
            && (r.Execution? && ClientOutcomeOf(n, ctx).Continue? ==> ExecuteOnServer(n.msg) in r.effects)
            && (r.DelegatedToApps? <==> ClientOutcomeOf(n, ctx).Continue? && ctx.appsEnabled && isAppCommand(n.msg))
            && (ClientOutcomeOf(n, ctx).Continue? && r.Execution? && reply.ServerError? ==> r.result == Failed(reply.message))
            && (ClientOutcomeOf(n, ctx).Continue? ==> ClientOutcomeOf(n, ctx).effects <= r.effects)
            && (ClientOutcomeOf(n, ctx).Handled? ==> r == Execution(ClientOutcomeOf(n, ctx).effects, ClientOutcomeOf(n, ctx).result))
            && (ClientOutcomeOf(n, ctx).Continue? && r.Execution? ==>
                  r == Execution(ClientOutcomeOf(n, ctx).effects + [ExecuteOnServer(n.msg)]
                                 + ServerOutcome(n.msg, reply, isUrlSafe, siteURL).0,
                                 ServerOutcome(n.msg, reply, isUrlSafe, siteURL).1))
  {
    var n := Normalize(message);
    var client := ClientOutcomeOf(n, ctx);
    if client.Handled? then Execution(client.effects, client.result)
    else if ctx.appsEnabled && isAppCommand(n.msg) then DelegatedToApps(client.effects)
    else
      var server := ServerOutcome(n.msg, reply, isUrlSafe, siteURL);
      Execution(client.effects + [ExecuteOnServer(n.msg)] + server.0, server.1)
  }

  /** The message is handed to the apps framework instead of the server. */
  predicate Delegated(ctx: Context, isAppCommand: string -> bool, message: string) {
    ctx.appsEnabled && isAppCommand(Normalize(message).msg)
  }

  /**
   * `/search`, in any letter case: the search is for exactly the argument, trimmed at both ends,
   * and nothing else happens.
   */
  lemma SearchUsesTrimmedArgument(word: string, arg: string, ctx: Context, isAppCommand: string -> bool,
                                  reply: ServerReply, isUrlSafe: string -> bool, siteURL: string)
    requires ' ' !in word && ToLower(word) == "/search"
    ensures ExecuteCommand(word + " " + arg, ctx, isAppCommand, reply, isUrlSafe, siteURL)
            == Execution([SearchForTerm(Trim(arg))], Done)
  {
    NormalizeWordAndArgument(word, arg);
    var n := Normalize(word + " " + arg);
    assert n.msg == "/search" + " " + Trim(arg);
    assert n.cmdLength == 7;
    assert n.msg[8..] == Trim(arg);
  }

  /** `/shortcuts` fails on a mobile agent without opening anything, and opens the modal elsewhere. */
  lemma ShortcutsDependOnAgent(word: string, arg: string, ctx: Context, isAppCommand: string -> bool,
                               reply: ServerReply, isUrlSafe: string -> bool, siteURL: string)
    requires ' ' !in word && ToLower(word) == "/shortcuts"
    ensures var r := ExecuteCommand(word + " " + arg, ctx, isAppCommand, reply, isUrlSafe, siteURL);
            && (ctx.isMobile ==> r == Execution([], Failed(ShortcutsNotSupported)))
            && (!ctx.isMobile ==> r == Execution([OpenKeyboardShortcutsModal], Done))
  {
    SplitAtSeparator(word, arg);
  }

  /** `/settings` opens the user settings modal and succeeds, whatever follows it. */
  lemma SettingsOpensModal(word: string, arg: string, ctx: Context, isAppCommand: string -> bool,
                           reply: ServerReply, isUrlSafe: string -> bool, siteURL: string)
    requires ' ' !in word && ToLower(word) == "/settings"
    ensures ExecuteCommand(word + " " + arg, ctx, isAppCommand, reply, isUrlSafe, siteURL)
            == Execution([OpenUserSettingsModal], Done)
  {
    SplitAtSeparator(word, arg);
  }

  /**
   * `/leave`: refused with an ephemeral post in a reply thread; the leave-private-channel modal in a
   * private channel; in a direct or group channel, the redirect and hiding of `LeaveDirectOrGroup`.
   * The server is not asked in any of these cases.
   */
  lemma LeaveOutcome(message: string, ctx: Context, isAppCommand: string -> bool,
                     reply: ServerReply, isUrlSafe: string -> bool, siteURL: string)
    requires Normalize(message).cmd == "/leave"
    ensures var r := ExecuteCommand(message, ctx, isAppCommand, reply, isUrlSafe, siteURL);
            var inThread := ctx.channelId != "" && ctx.rootId != "";
            var kind := if ctx.currentChannel.Some? then Some(ctx.currentChannel.value.kind) else None;
            && (inThread ==> r == Execution([SendEphemeralPost(LeaveNotSupportedInThreads, ctx.channelId, ctx.rootId)], Done))
            && (!inThread && kind == Some(PrivateChannel) ==>
                  r == Execution([OpenLeavePrivateChannelModal(ctx.currentChannel.value)], Done))
            && (!inThread && (kind == Some(DirectChannel) || kind == Some(GroupChannel)) ==>
                  r == Execution(LeaveDirectOrGroup(ctx, ctx.currentChannel.value), Done))
  {
    var n := Normalize(message);
    LeaveClientOutcome(n, ctx);
    var c := ClientOutcomeOf(n, ctx);
    if c.Handled? {
      assert ExecuteCommand(message, ctx, isAppCommand, reply, isUrlSafe, siteURL) == Execution(c.effects, c.result);
    }
  }

  /**
   * `/leave` outside a reply thread in an open channel, or with no current channel, is not answered
   * by the client: it goes on to the apps framework or the server.
   */
  lemma LeaveElsewhereGoesOn(word: string, arg: string, ctx: Context, isAppCommand: string -> bool,
                             reply: ServerReply, isUrlSafe: string -> bool, siteURL: string)
    requires ' ' !in word && ToLower(word) == "/leave"
    requires ctx.channelId == "" || ctx.rootId == ""
    requires ctx.currentChannel.None? || ctx.currentChannel.value.kind == OpenChannel
    ensures var r := ExecuteCommand(word + " " + arg, ctx, isAppCommand, reply, isUrlSafe, siteURL);
            r.DelegatedToApps? || ExecuteOnServer(Normalize(word + " " + arg).msg) in r.effects
  {
    SplitAtSeparator(word, arg);
    LeaveClientOutcome(Normalize(word + " " + arg), ctx);
  }

  lemma LeaveClientOutcome(n: Normalized, ctx: Context)
    requires n.cmd == "/leave"
    ensures var c := ClientOutcomeOf(n, ctx);
            var inThread := ctx.channelId != "" && ctx.rootId != "";
            var kind := if ctx.currentChannel.Some? then Some(ctx.currentChannel.value.kind) else None;
            && (inThread ==> c == Handled([SendEphemeralPost(LeaveNotSupportedInThreads, ctx.channelId, ctx.rootId)], Done))
            && (!inThread && kind == Some(PrivateChannel) ==>
                  c == Handled([OpenLeavePrivateChannelModal(ctx.currentChannel.value)], Done))
            && (!inThread && (kind == Some(DirectChannel) || kind == Some(GroupChannel)) ==>
                  c == Handled(LeaveDirectOrGroup(ctx, ctx.currentChannel.value), Done))
            && (!inThread && (kind == None || kind == Some(OpenChannel)) ==> c == Continue([]))
  {
  }

  /**
   * `/collapse` and `/expand` reset embed and inline-image visibility and still go on: unless the
   * apps framework claims the message, the server executes it right after.
   */
  lemma CollapseExpandFallThrough(message: string, ctx: Context, isAppCommand: string -> bool,
                                  reply: ServerReply, isUrlSafe: string -> bool, siteURL: string)
    requires Normalize(message).cmd == "/collapse" || Normalize(message).cmd == "/expand"
    ensures var r := ExecuteCommand(message, ctx, isAppCommand, reply, isUrlSafe, siteURL);
            && (Delegated(ctx, isAppCommand, message) ==> r == DelegatedToApps([ResetEmbedVisibility, ResetInlineImageVisibility]))
            && (!Delegated(ctx, isAppCommand, message) ==>
                  r.Execution? && |r.effects| >= 3
                  && r.effects[..3] == [ResetEmbedVisibility, ResetInlineImageVisibility, ExecuteOnServer(Normalize(message).msg)])
  {
    var n := Normalize(message);
    ResetsThenContinue(n, ctx);
    var r := ExecuteCommand(message, ctx, isAppCommand, reply, isUrlSafe, siteURL);
    if !Delegated(ctx, isAppCommand, message) {
      var head := [ResetEmbedVisibility, ResetInlineImageVisibility] + [ExecuteOnServer(n.msg)];
      assert r.effects == head + ServerOutcome(n.msg, reply, isUrlSafe, siteURL).0;
      assert r.effects[..3] == head;
    }
  }

  lemma ResetsThenContinue(n: Normalized, ctx: Context)
    requires n.cmd == "/collapse" || n.cmd == "/expand"
    ensures ClientOutcomeOf(n, ctx) == Continue([ResetEmbedVisibility, ResetInlineImageVisibility])
  {
  }

  /**
   * `/logout`, in any letter case and with nothing but whitespace after it: once the server has
   * answered, the user is logged out towards the safe `goto_location`, or towards "/" without one;
   * no routing happens.
   */
  lemma LogoutRedirect(word: string, arg: string, ctx: Context, isAppCommand: string -> bool,
                       goto: string, trigger: string, isUrlSafe: string -> bool, siteURL: string)
    requires ' ' !in word && ToLower(word) == "/logout" && AllWhitespace(arg)
    requires !Delegated(ctx, isAppCommand, word + " " + arg)
    ensures var reply := ServerData(goto, trigger);
            var target := if goto != "" && isUrlSafe(goto) then goto else "/";
            ExecuteCommand(word + " " + arg, ctx, isAppCommand, reply, isUrlSafe, siteURL)
            == Execution([ExecuteOnServer("/logout "), EmitUserLoggedOut(target)], Done)
  {
    var message := word + " " + arg;
    LogoutNormalizes(word, arg);
    var n := Normalize(message);
    assert ClientOutcomeOf(n, ctx) == Continue([]);
    LogoutServerOutcome(n.msg, goto, trigger, isUrlSafe, siteURL);
  }

  lemma LogoutNormalizes(word: string, arg: string)
    requires ' ' !in word && ToLower(word) == "/logout" && AllWhitespace(arg)
    ensures Normalize(word + " " + arg).cmd == "/logout"
    ensures Normalize(word + " " + arg).msg == "/logout "
    ensures Trim(Normalize(word + " " + arg).msg) == "/logout"
  {
    NormalizeWordAndArgument(word, arg);
    TrimSlice(arg);
    LogoutIsTrimmed();
  }

  lemma LogoutServerOutcome(msg: string, goto: string, trigger: string, isUrlSafe: string -> bool, siteURL: string)
    requires Trim(msg) == "/logout"
    ensures var target := if goto != "" && isUrlSafe(goto) then goto else "/";
            ServerOutcome(msg, ServerData(goto, trigger), isUrlSafe, siteURL) == ([EmitUserLoggedOut(target)], Done)
  {
  }

  /**
   * `/logout` followed by anything but whitespace is not a logout: the trimmed message is longer
   * than "/logout", so the server's answer is acted on like any other command's.
   */
  lemma LogoutWithArgumentIsNotLogout(word: string, arg: string)
    requires ' ' !in word && ToLower(word) == "/logout" && !AllWhitespace(arg)
    ensures Trim(Normalize(word + " " + arg).msg) != "/logout"
  {
    var cmd, t := ToLower(word), Trim(arg);
    ArgumentMessage(word, arg);
    assert |cmd| == 7 && cmd[0] == '/';
    JoinIsTrimmed(cmd, t);
  }

  lemma ArgumentMessage(word: string, arg: string)
    requires ' ' !in word && ToLower(word) != "/code"
    ensures Normalize(word + " " + arg).msg == ToLower(word) + " " + Trim(arg)
  {
    NormalizeWordAndArgument(word, arg);
  }

  lemma JoinIsTrimmed(cmd: string, t: string)
    requires |cmd| > 0 && !IsWhitespace(cmd[0])
    requires |t| > 0 && Trimmed(t)
    ensures Trim(cmd + " " + t) == cmd + " " + t
    ensures |Trim(cmd + " " + t)| > |cmd| + 1
  {
    var msg := cmd + " " + t;
    assert msg[0] == cmd[0];
    assert msg[|msg| - 1] == t[|t| - 1];
  }

  lemma LogoutIsTrimmed()
    ensures Trim("/logout ") == "/logout"
  {
    assert Trimmed("/logout");
    assert AllWhitespace(" ");
    TrimBeforeWhitespace("/logout", " ");
    assert "/logout" + " " == "/logout ";
  }
}

=== FILE: plugins.dfy ===
/**
 * The web-app plugin lifecycle of plugins/index.js as a pure state machine.
 *
 * The module-level mutable state of the source becomes an immutable `State`:
 *   - `loaded`  is `loadedPlugins`, manifest by plugin id, recorded when the script is appended;
 *   - `plugins` is `window.plugins`, the object each bundle handed to `registerPlugin`;
 *   - `scripts` are the plugin `<script>` elements under `<head>`, in document order.
 * Every operation returns the next state together with the trace of side effects it performs
 * (hook calls, store dispatches, deregistrations, DOM changes), in the order it performs them.
 */
module Plugins {
  import opened Wrappers
  import opened Text

  /** A web-app plugin manifest as served by the server: id, version and `webapp.bundle_path`. */
  datatype Manifest = Manifest(id: string, version: string, bundlePath: string)

  /**
   * The object a bundle registers. `handle` stands for its object identity; the three flags say
   * which of the optional `initialize`, `uninitialize` and deprecated `deinitialize` hooks it defines.
   */
  datatype PluginObject = PluginObject(handle: nat, hasInitialize: bool, hasUninitialize: bool, hasDeinitialize: bool)

  /** A `<script>` element: its DOM id and its `src`. */
  datatype Script = Script(elementId: string, src: string)

  /**
   * The configuration and preference values `arePluginsEnabled` reads: the server's
   * `PluginsEnabled` setting (a string), whether performance debugging is on, and the user's
   * disable-client-plugins preference in the performance-debugging category.
   */
  datatype Config = Config(pluginsEnabled: string, performanceDebugging: bool, disableClientPlugins: bool)

  /** What the loader reads from its surroundings: the configuration and `getSiteURL()`. */
  datatype Env = Env(config: Config, siteURL: string)

  datatype State = State(loaded: map<string, Manifest>, plugins: map<string, PluginObject>, scripts: seq<Script>)

  /** The side effects of the lifecycle operations, one per call the source makes. */
  datatype Event =
    | Initialize(id: string, plugin: PluginObject)
    | Uninitialize(id: string, plugin: PluginObject)
    | Deinitialize(id: string, plugin: PluginObject)
    | RemoveWebappPlugin(manifest: Manifest)
    | AppendScript(script: Script)
    | RemoveScript(elementId: string)
    | UnregisterWebSocketEvents(id: string)
    | UnregisterReconnectHandler(id: string)
    | UnregisterAdminConsolePlugin(id: string)
    | UnregisterTranslationsSource(id: string)
    | ReceivedWebappPlugins(data: Option<seq<Manifest>>)
    | LogError(message: string)
    | TrackPluginInitialization(manifests: seq<Manifest>)

  datatype Step = Step(state: State, events: seq<Event>)

  const StaticPrefix: string := "/static/"
  const PluginsPrefix: string := "/static/plugins/"
  const ScriptPrefix: string := "plugin_"

  /** The DOM id of a plugin's script element. */
  function ScriptId(id: string): string {
    ScriptPrefix + id
  }

  lemma ScriptIdInjective(a: string, b: string)
    ensures ScriptId(a) == ScriptId(b) ==> a == b
  {
    if ScriptId(a) == ScriptId(b) {
      assert a == ScriptId(a)[|ScriptPrefix|..];
      assert b == ScriptId(b)[|ScriptPrefix|..];
    }
  }

  /** `describePlugin`: the text used in log and error messages. */
  function DescribePlugin(m: Manifest): string {
    "plugin " + m.id + ", version " + m.version
  }

  // ---------------------------------------------------------------------------------------------
  // registerPlugin

  /**
   * `registerPlugin(id, plugin)`: the previously registered object, if it defines `uninitialize`,
   * is told to uninitialize; then `id` maps to the new object.
   */
  function RegisterPlugin(s: State, id: string, p: PluginObject): (r: Step)
    ensures id in r.state.plugins && r.state.plugins[id] == p
    ensures r.state.plugins.Keys == s.plugins.Keys + {id}
    ensures forall other :: other in s.plugins && other != id ==> r.state.plugins[other] == s.plugins[other]
    ensures r.state.loaded == s.loaded && r.state.scripts == s.scripts
    ensures |r.events| <= 1
    ensures |r.events| == 1 <==> id in s.plugins && s.plugins[id].hasUninitialize
    ensures forall e :: e in r.events ==> id in s.plugins && e == Uninitialize(id, s.plugins[id])
  {
    var hook := if id in s.plugins && s.plugins[id].hasUninitialize then [Uninitialize(id, s.plugins[id])] else [];
    Step(s.(plugins := s.plugins[id := p]), hook)
  }

  // ---------------------------------------------------------------------------------------------
  // arePluginsEnabled

  /**
   * `arePluginsEnabled`: the server setting must be exactly the string "true", and the
   * client-side switch (performance debugging together with the disable preference) must be off.
   */
  function ArePluginsEnabled(c: Config): (r: bool)
    ensures r ==> c.pluginsEnabled == "true"
    ensures r ==> !c.performanceDebugging || !c.disableClientPlugins
  {
    if c.pluginsEnabled != "true" then false
    else if c.performanceDebugging && c.disableClientPlugins then false
    else true
  }

  // ---------------------------------------------------------------------------------------------
  // loadPlugin, synchronous part

  lemma PluginsPrefixHasStatic(s: string, i: int)
    requires OccursAt(s, PluginsPrefix, i)
    ensures OccursAt(s, StaticPrefix, i)
  {
    assert s[i..i + |StaticPrefix|] == s[i..i + |PluginsPrefix|][..|StaticPrefix|];
  }

  lemma PluginsImpliesStatic(path: string)
    ensures Contains(path, PluginsPrefix) ==> Contains(path, StaticPrefix)
  {
    if Contains(path, PluginsPrefix) {
      var i :| 0 <= i <= |path| - |PluginsPrefix| && OccursAt(path, PluginsPrefix, i);
      PluginsPrefixHasStatic(path, i);
    }
  }

  /**
   * The backwards-compatibility rewrite of `bundle_path`: a path under `/static/` that is not
   * already under `/static/plugins/` gets its first `/static/` replaced by `/static/plugins/`.
   */
  function RewriteBundlePath(path: string): (r: string)
    ensures !Contains(path, StaticPrefix) ==> r == path
    ensures Contains(path, PluginsPrefix) ==> r == path
    ensures Contains(r, PluginsPrefix) <==> Contains(path, StaticPrefix)
  {
    if Contains(path, StaticPrefix) && !Contains(path, PluginsPrefix) then
      var r := ReplaceFirst(path, StaticPrefix, PluginsPrefix);
      var i := IndexOf(path, StaticPrefix);
      assert OccursAt(r, PluginsPrefix, i) by {
        assert r[i..i + |PluginsPrefix|] == PluginsPrefix;
      }
      r
    else
      PluginsImpliesStatic(path);
      path
  }

  /** Rewriting a rewritten path changes nothing. */
  lemma RewriteIdempotent(path: string)
    ensures RewriteBundlePath(RewriteBundlePath(path)) == RewriteBundlePath(path)
  {
    var r := RewriteBundlePath(path);
    if Contains(path, StaticPrefix) {
      assert Contains(r, PluginsPrefix);
    }
  }

  /**
   * When the rewrite applies, it inserts `plugins/` right after the FIRST `/static/` and keeps
   * every other character, in order; a later `/static/` is left alone.
   */
  lemma RewriteInsertsAfterFirstStatic(path: string)
    requires Contains(path, StaticPrefix) && !Contains(path, PluginsPrefix)
    ensures var i := IndexOf(path, StaticPrefix);
            && 0 <= i && i + |StaticPrefix| <= |path|
            && (forall j :: 0 <= j < i ==> !OccursAt(path, StaticPrefix, j))
            && RewriteBundlePath(path) == path[..i + |StaticPrefix|] + "plugins/" + path[i + |StaticPrefix|..]
  {
    var i := IndexOf(path, StaticPrefix);
    var r := RewriteBundlePath(path);
    assert r == ReplaceFirst(path, StaticPrefix, PluginsPrefix);
    PluginsPrefixExtendsStatic();
    InsertAfterOccurrence(path, StaticPrefix, "plugins/", i);
  }

  lemma PluginsPrefixExtendsStatic()
    ensures PluginsPrefix == StaticPrefix + "plugins/"
  {
  }

  /** Replacing an occurrence of `pat` by `pat + extra` inserts `extra` right after it. */
  lemma InsertAfterOccurrence(s: string, pat: string, extra: string, i: int)
    requires OccursAt(s, pat, i)
    ensures s[..i] + (pat + extra) + s[i + |pat|..] == s[..i + |pat|] + extra + s[i + |pat|..]
  {
    assert s[..i + |pat|] == s[..i] + pat;
  }

  /** `loadPlugin` returns at once because this manifest's bundle path is already recorded. */
  predicate AlreadyLoaded(s: State, m: Manifest) {
    m.id in s.loaded && s.loaded[m.id].bundlePath == m.bundlePath
  }

  /** The script `loadPlugin` appends for a manifest. */
  function ScriptFor(env: Env, m: Manifest): (sc: Script)
    ensures sc.elementId == ScriptId(m.id)
    ensures StartsWith(sc.src, env.siteURL)
    ensures sc.src[|env.siteURL|..] == RewriteBundlePath(m.bundlePath)
  {
    var sc := Script(ScriptId(m.id), env.siteURL + RewriteBundlePath(m.bundlePath));
    assert sc.src[..|env.siteURL|] == env.siteURL;
    sc
  }

  /**
   * The synchronous part of `loadPlugin(manifest)`: nothing when plugins are disabled or the
   * same bundle path is recorded; otherwise an upgrade first dispatches `removeWebappPlugin`
   * with the NEW manifest, then the script is appended and the manifest recorded at once.
   * The old script element and the old registered object stay where they are.
   */
  function LoadPlugin(env: Env, s: State, m: Manifest): (r: Step)
    ensures !ArePluginsEnabled(env.config) || AlreadyLoaded(s, m) ==> r == Step(s, [])
    ensures ArePluginsEnabled(env.config) && !AlreadyLoaded(s, m) ==>
              && r.state.loaded == s.loaded[m.id := m]
              && r.state.plugins == s.plugins
              && r.state.scripts == s.scripts + [ScriptFor(env, m)]
              && |r.events| >= 1 && r.events[|r.events| - 1] == AppendScript(ScriptFor(env, m))
              && (m.id in s.loaded <==> |r.events| == 2)
              && (m.id in s.loaded ==> r.events[0] == RemoveWebappPlugin(m))
              && (m.id !in s.loaded ==> |r.events| == 1)
  {
    if !ArePluginsEnabled(env.config) then Step(s, [])
    else if AlreadyLoaded(s, m) then Step(s, [])
    else
      var cleanup := if m.id in s.loaded then [RemoveWebappPlugin(m)] else [];
      var script := ScriptFor(env, m);
      Step(s.(loaded := s.loaded[m.id := m], scripts := s.scripts + [script]), cleanup + [AppendScript(script)])
  }

  /** Loading the same manifest again right after it was loaded does nothing. */
  lemma LoadPluginTwiceIsNoop(env: Env, s: State, m: Manifest)
    ensures var first := LoadPlugin(env, s, m);
            LoadPlugin(env, first.state, m) == Step(first.state, [])
  {
  }

  /**
   * A manifest whose version changed while its bundle path did not is NOT reloaded:
   * the short-circuit compares bundle paths only.
   */
  lemma VersionBumpSamePathIsNoop(env: Env, s: State, m: Manifest)
    requires m.id in s.loaded && s.loaded[m.id].bundlePath == m.bundlePath
    requires s.loaded[m.id].version != m.version
    ensures LoadPlugin(env, s, m) == Step(s, [])
    ensures m.id in LoadPlugin(env, s, m).state.loaded && LoadPlugin(env, s, m).state.loaded[m.id].version != m.version
  {
  }

  // ---------------------------------------------------------------------------------------------
  // loadPlugin, completion: onLoad (through initializePlugin) and onError

  /** `initializePlugin`: the object registered under the manifest's id is initialized if it can be. */
  function InitializePlugin(s: State, m: Manifest): (r: seq<Event>)
    ensures |r| <= 1
    ensures |r| == 1 <==> m.id in s.plugins && s.plugins[m.id].hasInitialize
    ensures forall e :: e in r ==> m.id in s.plugins && e == Initialize(m.id, s.plugins[m.id])
  {
    if m.id in s.plugins && s.plugins[m.id].hasInitialize then [Initialize(m.id, s.plugins[m.id])] else []
  }

  /**
   * How an appended script settles. `Executes(registered)`: the bundle ran and, if `registered`
   * holds an object, called `registerPlugin` with it under the manifest's id.
   * `FailsToLoad`: the script's `error` event fired.
   */
  datatype BundleOutcome = Executes(registered: Option<PluginObject>) | FailsToLoad

  /** The message of the error `loadPlugin` rejects with when the script fails to load. */
  function LoadErrorMessage(m: Manifest): string {
    "Unable to load bundle for " + DescribePlugin(m)
  }

  /**
   * The asynchronous end of `loadPlugin`: on success the bundle's registration (which runs an
   * old object's `uninitialize`) and then `initializePlugin`; on failure the rejection, logged
   * by every caller. Neither path touches `loadedPlugins` or the scripts.
   */
  function SettleLoad(s: State, m: Manifest, outcome: BundleOutcome): (r: Step)
    ensures r.state.loaded == s.loaded && r.state.scripts == s.scripts
    ensures outcome == FailsToLoad ==> r == Step(s, [LogError(LoadErrorMessage(m))])
    ensures outcome.Executes? && outcome.registered.Some? ==>
              && r.state.plugins == s.plugins[m.id := outcome.registered.value]
              && (outcome.registered.value.hasInitialize <==> Initialize(m.id, outcome.registered.value) in r.events)
    ensures outcome == Executes(None) ==> r.state == s && r.events == InitializePlugin(s, m)
    ensures outcome.Executes? && outcome.registered.Some? ==>
              r.events == RegisterPlugin(s, m.id, outcome.registered.value).events + InitializePlugin(r.state, m)
    ensures outcome.Executes? && outcome.registered.Some? && outcome.registered.value.hasInitialize
            && m.id in s.plugins && s.plugins[m.id].hasUninitialize ==>
              r.events == [Uninitialize(m.id, s.plugins[m.id]), Initialize(m.id, outcome.registered.value)]
    ensures forall e :: e in r.events ==> e.Uninitialize? || e.Initialize? || e.LogError?
  {
    match outcome
    case FailsToLoad => Step(s, [LogError(LoadErrorMessage(m))])
    case Executes(None) => Step(s, InitializePlugin(s, m))
    case Executes(Some(p)) =>
      var reg := RegisterPlugin(s, m.id, p);
      Step(reg.state, reg.events + InitializePlugin(reg.state, m))
  }

  /**
   * A bundle whose script failed to load stays recorded, so loading the same manifest again
   * is a no-op rather than a retry.
   */
  lemma FailedLoadIsNotRetried(env: Env, s: State, m: Manifest)
    ensures var appended := LoadPlugin(env, s, m);
            var failed := SettleLoad(appended.state, m, FailsToLoad);
            LoadPlugin(env, failed.state, m) == Step(failed.state, [])
  {
  }

  /**
   * A fresh load of a bundle that registers an object with an `initialize` hook: the script is
   * appended, and when it settles the object is registered and initialized, in that order.
   */
  lemma FreshLoadInitializes(env: Env, s: State, m: Manifest, p: PluginObject)
    requires ArePluginsEnabled(env.config)
    requires m.id !in s.loaded && m.id !in s.plugins
    requires p.hasInitialize
    ensures var appended := LoadPlugin(env, s, m);
            var settled := SettleLoad(appended.state, m, Executes(Some(p)));
            appended.events + settled.events == [AppendScript(ScriptFor(env, m)), Initialize(m.id, p)]
            && settled.state.plugins == s.plugins[m.id := p]
            && settled.state.loaded == s.loaded[m.id := m]
  {
  }

  // ---------------------------------------------------------------------------------------------
  // removePlugin

  /** `document.getElementById(elementId)` over the plugin scripts: the first match, or -1. */
  function FirstScript(scripts: seq<Script>, elementId: string): (r: int)
    ensures -1 <= r < |scripts|
    ensures r >= 0 ==> scripts[r].elementId == elementId
    ensures forall j :: 0 <= j < |scripts| && (r == -1 || j < r) ==> scripts[j].elementId != elementId
  {
    if |scripts| == 0 then -1
    else if scripts[0].elementId == elementId then 0
    else
      var k := FirstScript(scripts[1..], elementId);
      if k == -1 then -1 else k + 1
  }

  predicate HasScript(scripts: seq<Script>, elementId: string) {
    exists j :: 0 <= j < |scripts| && scripts[j].elementId == elementId
  }

  /** The teardown hook `removePlugin` calls: `uninitialize` if defined, else `deinitialize` if defined. */
  function TeardownHook(s: State, id: string): seq<Event> {
    if id in s.plugins && s.plugins[id].hasUninitialize then [Uninitialize(id, s.plugins[id])]
    else if id in s.plugins && s.plugins[id].hasDeinitialize then [Deinitialize(id, s.plugins[id])]
    else []
  }

  /** The side-channel registrations `removePlugin` force-removes, in the order it removes them. */
  function Deregistrations(id: string): seq<Event> {
    [UnregisterWebSocketEvents(id), UnregisterReconnectHandler(id),
     UnregisterAdminConsolePlugin(id), UnregisterTranslationsSource(id)]
  }

  /**
   * `removePlugin(manifest)`: nothing for an unrecorded id; otherwise the id is forgotten, the store
   * is told, the teardown hook runs, side channels are cleared and the first script element with
   * the plugin's DOM id, if any, is removed. `window.plugins` keeps the object.
   */
  function RemovePlugin(s: State, m: Manifest): (r: Step)
    ensures m.id !in s.loaded ==> r == Step(s, [])
    ensures m.id in s.loaded ==>
              && r.state.loaded == s.loaded - {m.id}
              && r.state.plugins == s.plugins
              && r.state.scripts == DetachFirst(s.scripts, ScriptId(m.id))
              && |r.events| >= 5
              && r.events[0] == RemoveWebappPlugin(m)
    ensures forall e :: e in r.events ==> IsRemovalEffect(e)
  {
    if m.id !in s.loaded then Step(s, [])
    else
      var eid := ScriptId(m.id);
      var detach := if HasScript(s.scripts, eid) then [RemoveScript(eid)] else [];
      var events := [RemoveWebappPlugin(m)] + TeardownHook(s, m.id) + Deregistrations(m.id) + detach;
      Step(State(s.loaded - {m.id}, s.plugins, DetachFirst(s.scripts, eid)), events)
  }

  /** `script.parentNode.removeChild(script)` for the element `getElementById` finds, if any. */
  function DetachFirst(scripts: seq<Script>, elementId: string): (r: seq<Script>)
    ensures !HasScript(scripts, elementId) ==> r == scripts
    ensures HasScript(scripts, elementId) ==>
              var k := FirstScript(scripts, elementId);
              0 <= k < |scripts| && r == scripts[..k] + scripts[k + 1..]
  {
    var k := FirstScript(scripts, elementId);
    if k < 0 then scripts else scripts[..k] + scripts[k + 1..]
  }

  predicate IsTeardownHook(e: Event) {
    e.Uninitialize? || e.Deinitialize?
  }

  predicate IsDeregistration(e: Event) {
    || e.UnregisterWebSocketEvents? || e.UnregisterReconnectHandler?
    || e.UnregisterAdminConsolePlugin? || e.UnregisterTranslationsSource?
  }

  /** The kinds of effect `removePlugin` has. */
  predicate IsRemovalEffect(e: Event) {
    e.RemoveWebappPlugin? || IsTeardownHook(e) || IsDeregistration(e) || e.RemoveScript?
  }

  /** Every teardown hook call in `evs` happens before every forced deregistration. */
  predicate HooksBeforeDeregistrations(evs: seq<Event>) {
    forall i, j :: 0 <= i < |evs| && 0 <= j < |evs| && IsTeardownHook(evs[i]) && IsDeregistration(evs[j]) ==> i < j
  }

  /** At most one teardown hook is called. */
  predicate AtMostOneHook(evs: seq<Event>) {
    forall i, j :: 0 <= i < j < |evs| && IsTeardownHook(evs[i]) ==> !IsTeardownHook(evs[j])
  }

  /** A script removal, if any, is the last thing that happens. */
  predicate ScriptRemovalLast(evs: seq<Event>) {
    forall i :: 0 <= i < |evs| && evs[i].RemoveScript? ==> i == |evs| - 1
  }

  /**
   * The order of `removePlugin`'s effects on a recorded plugin: the store dispatch first, then at
   * most one teardown hook, then all four side-channel deregistrations, and the script removal
   * last and only when a script element exists.
   */
  lemma RemovePluginOrdering(s: State, m: Manifest)
    requires m.id in s.loaded
    ensures var evs := RemovePlugin(s, m).events;
            && evs[0] == RemoveWebappPlugin(m)
            && HooksBeforeDeregistrations(evs)
            && AtMostOneHook(evs)
            && ScriptRemovalLast(evs)
            && (forall e :: e in Deregistrations(m.id) ==> e in evs)
            && (RemoveScript(ScriptId(m.id)) in evs <==> HasScript(s.scripts, ScriptId(m.id)))
    ensures var evs := RemovePlugin(s, m).events;
            var h := if m.id in s.plugins && (s.plugins[m.id].hasUninitialize || s.plugins[m.id].hasDeinitialize) then 1 else 0;
            var d := if HasScript(s.scripts, ScriptId(m.id)) then 1 else 0;
            && |evs| == 5 + h + d
            && evs[|evs| - d - 4..|evs| - d] == Deregistrations(m.id)
  {
    var hook := TeardownHook(s, m.id);
    var detach := if HasScript(s.scripts, ScriptId(m.id)) then [RemoveScript(ScriptId(m.id))] else [];
    var evs := RemovePlugin(s, m).events;
    assert evs == [RemoveWebappPlugin(m)] + hook + Deregistrations(m.id) + detach;
    assert |hook| <= 1;
    forall i | 0 <= i < |evs|
      ensures IsTeardownHook(evs[i]) ==> i == 1
      ensures IsDeregistration(evs[i]) ==> 1 + |hook| <= i < 5 + |hook|
      ensures evs[i].RemoveScript? ==> i == |evs| - 1
    {
      if i == 0 {
      } else if i < 1 + |hook| {
      } else if i < 5 + |hook| {
        assert evs[i] == Deregistrations(m.id)[i - 1 - |hook|];
      } else {
        assert evs[i] == detach[i - 5 - |hook|];
      }
    }
    if HasScript(s.scripts, ScriptId(m.id)) {
      assert evs[|evs| - 1] == RemoveScript(ScriptId(m.id));
    }
    assert evs[1 + |hook|..5 + |hook|] == Deregistrations(m.id);
  }

  /**
   * Which teardown hook `removePlugin` calls: `uninitialize` when the registered object defines it,
   * otherwise the deprecated `deinitialize` when defined, otherwise none.
   */
  lemma RemovePluginHookChoice(s: State, m: Manifest)
    requires m.id in s.loaded
    ensures var evs := RemovePlugin(s, m).events;
            && (m.id in s.plugins && s.plugins[m.id].hasUninitialize ==>
                  Uninitialize(m.id, s.plugins[m.id]) in evs && forall e :: e in evs ==> !e.Deinitialize?)
            && (m.id in s.plugins && !s.plugins[m.id].hasUninitialize && s.plugins[m.id].hasDeinitialize ==>
                  Deinitialize(m.id, s.plugins[m.id]) in evs && forall e :: e in evs ==> !e.Uninitialize?)
            && ((m.id !in s.plugins || (!s.plugins[m.id].hasUninitialize && !s.plugins[m.id].hasDeinitialize)) ==>
                  forall e :: e in evs ==> !IsTeardownHook(e))
  {
    var hook := TeardownHook(s, m.id);
    var detach := if HasScript(s.scripts, ScriptId(m.id)) then [RemoveScript(ScriptId(m.id))] else [];
    var evs := RemovePlugin(s, m).events;
    assert evs == [RemoveWebappPlugin(m)] + hook + (Deregistrations(m.id) + detach);
    assert forall e :: e in evs ==> e == RemoveWebappPlugin(m) || e in hook || e in Deregistrations(m.id) + detach;
  }

  // ---------------------------------------------------------------------------------------------
  // Invariant: every recorded plugin has a script element

  /** Every recorded plugin id has at least one script element carrying its DOM id. */
  predicate ScriptsCoverLoaded(s: State) {
    forall id :: id in s.loaded ==> HasScript(s.scripts, ScriptId(id))
  }

  lemma LoadPluginKeepsScriptsCoverLoaded(env: Env, s: State, m: Manifest)
    requires ScriptsCoverLoaded(s)
    ensures ScriptsCoverLoaded(LoadPlugin(env, s, m).state)
  {
    var r := LoadPlugin(env, s, m).state;
    if ArePluginsEnabled(env.config) && !AlreadyLoaded(s, m) {
      forall id | id in r.loaded
        ensures HasScript(r.scripts, ScriptId(id))
      {
        if id == m.id {
          assert r.scripts[|s.scripts|].elementId == ScriptId(id);
        } else {
          var j :| 0 <= j < |s.scripts| && s.scripts[j].elementId == ScriptId(id);
          assert r.scripts[j] == s.scripts[j];
        }
      }
    }
  }

  lemma RemovePluginKeepsScriptsCoverLoaded(s: State, m: Manifest)
    requires ScriptsCoverLoaded(s)
    ensures ScriptsCoverLoaded(RemovePlugin(s, m).state)
  {
    var r := RemovePlugin(s, m).state;
    if m.id in s.loaded {
      forall id | id in r.loaded
        ensures HasScript(r.scripts, ScriptId(id))
      {
        var j :| 0 <= j < |s.scripts| && s.scripts[j].elementId == ScriptId(id);
        ScriptIdInjective(id, m.id);
        var k := FirstScript(s.scripts, ScriptId(m.id));
        if k >= 0 {
          assert j != k;
          if j < k {
            assert r.scripts[j] == s.scripts[j];
          } else {
            assert r.scripts[j - 1] == s.scripts[j];
          }
        }
      }
    }
  }

  /** Registration touches neither the recorded manifests nor the scripts. */
  lemma RegisterKeepsScriptsCoverLoaded(s: State, id: string, p: PluginObject)
    requires ScriptsCoverLoaded(s)
    ensures ScriptsCoverLoaded(RegisterPlugin(s, id, p).state)
  {
  }

  /** Neither does the completion of a load, whether the bundle ran or failed. */
  lemma SettleKeepsScriptsCoverLoaded(s: State, m: Manifest, outcome: BundleOutcome)
    requires ScriptsCoverLoaded(s)
    ensures ScriptsCoverLoaded(SettleLoad(s, m, outcome).state)
  {
  }

  /**
   * An upgrade appends a second script element with the same DOM id and leaves the first in place;
   * removing the plugin afterwards detaches only the first, so a script element for the plugin
   * remains although the plugin is no longer recorded.
   */
  lemma UpgradeThenRemoveLeavesScript(env: Env, s: State, m: Manifest)
    requires ArePluginsEnabled(env.config)
    requires m.id in s.loaded && s.loaded[m.id].bundlePath != m.bundlePath
    requires HasScript(s.scripts, ScriptId(m.id))
    ensures var up := LoadPlugin(env, s, m);
            var gone := RemovePlugin(up.state, m);
            && m.id !in gone.state.loaded
            && HasScript(gone.state.scripts, ScriptId(m.id))
            && gone.state.plugins == s.plugins
  {
    var up := LoadPlugin(env, s, m).state;
    var eid := ScriptId(m.id);
    var j :| 0 <= j < |s.scripts| && s.scripts[j].elementId == eid;
    assert up.scripts[j] == s.scripts[j];
    var k := FirstScript(up.scripts, eid);
    assert 0 <= k <= j;
    var gone := RemovePlugin(up, m).state;
    assert gone.scripts[|up.scripts| - 2] == up.scripts[|up.scripts| - 1];
  }
}

=== FILE: synchronizer.dfy ===
/**
 * The batch operations of plugins/index.js: `initializePlugins` (first load of every enabled
 * plugin) and `loadPluginsIfNecessary` (reconciling the store's plugin table before and after a
 * fresh fetch). The store's table `state.plugins.plugins` is a list of manifests in key order;
 * the fetch is a parameter.
 */
module Synchronizer {
  import opened Wrappers
  import opened Plugins

  /** A manifest table as the store holds it, in `Object.values` order. */
  type Table = seq<Manifest>

  /** `table[id]`: the manifest recorded under `id`, if any. */
  function Lookup(t: Table, id: string): (r: Option<Manifest>)
    ensures r.Some? ==> r.value in t && r.value.id == id
    ensures r.None? <==> forall m :: m in t ==> m.id != id
  {
    if t == [] then None
    else if t[0].id == id then Some(t[0])
    else Lookup(t[1..], id)
  }

  /** The reconciler's test: the id is new, or its recorded `version` differs. */
  predicate NeedsLoad(oldTable: Table, m: Manifest) {
    Lookup(oldTable, m.id).None? || Lookup(oldTable, m.id).value.version != m.version
  }

  /** The manifests of the new table the reconciler hands to `loadPlugin`, in order. */
  function ToLoad(oldTable: Table, newTable: Table): (r: Table)
    ensures forall m :: m in r <==> m in newTable && NeedsLoad(oldTable, m)
    ensures |r| <= |newTable|
  {
    if newTable == [] then []
    else (if NeedsLoad(oldTable, newTable[0]) then [newTable[0]] else []) + ToLoad(oldTable, newTable[1..])
  }

  /** The manifests of the old table the reconciler hands to `removePlugin`, in order. */
  function ToRemove(oldTable: Table, newTable: Table): (r: Table)
    ensures forall m :: m in r <==> m in oldTable && Lookup(newTable, m.id).None?
    ensures |r| <= |oldTable|
  {
    if oldTable == [] then []
    else (if Lookup(newTable, oldTable[0].id).None? then [oldTable[0]] else []) + ToRemove(oldTable[1..], newTable)
  }

  datatype Plan = Plan(toLoad: Table, toRemove: Table)

  /**
   * The diff of `loadPluginsIfNecessary`: manifests to load are exactly the new entries that are
   * absent from the old table or carry another version; manifests to remove are exactly the old
   * entries whose id the new table lacks. No id is in both, an unchanged entry is in neither, and
   * an empty new table removes every old entry.
   */
  function Diff(oldTable: Table, newTable: Table): (r: Plan)
    ensures forall m :: m in r.toLoad <==> m in newTable && (Lookup(oldTable, m.id).None? || Lookup(oldTable, m.id).value.version != m.version)
    ensures forall m :: m in r.toRemove <==> m in oldTable && forall n :: n in newTable ==> n.id != m.id
    ensures forall a, b :: a in r.toLoad && b in r.toRemove ==> a.id != b.id
    ensures forall m :: m in newTable && Lookup(oldTable, m.id) == Some(m) ==> m !in r.toLoad
    ensures newTable == [] ==> r.toLoad == [] && r.toRemove == oldTable
  {
    ToRemoveAll(oldTable);
    Plan(ToLoad(oldTable, newTable), ToRemove(oldTable, newTable))
  }

  lemma {:induction false} ToRemoveAll(oldTable: Table)
    ensures ToRemove(oldTable, []) == oldTable
  {
    if oldTable != [] {
      ToRemoveAll(oldTable[1..]);
    }
  }

  /** A table with no id twice, as the store's keyed object guarantees. */
  predicate UniqueIds(t: Table) {
    forall i, j :: 0 <= i < j < |t| ==> t[i].id != t[j].id
  }

  lemma {:induction false} LookupFindsMember(t: Table, m: Manifest)
    requires UniqueIds(t) && m in t
    ensures Lookup(t, m.id) == Some(m)
  {
    if t[0] != m {
      assert m in t[1..];
      assert forall i, j :: 0 <= i < j < |t[1..]| ==> t[1..][i] == t[i + 1] && t[1..][j] == t[j + 1];
      assert t[0].id != m.id;
      LookupFindsMember(t[1..], m);
    }
  }

  /**
   * Re-fetching an unchanged table loads and removes nothing (the periodic
   * reconciliation stays quiet when nothing changed on the server).
   */
  lemma SameTableIsQuiet(t: Table)
    requires UniqueIds(t)
    ensures Diff(t, t) == Plan([], [])
  {
    forall m | m in t
      ensures Lookup(t, m.id) == Some(m)
    {
      LookupFindsMember(t, m);
    }
    ToLoadNothing(t, t);
    ToRemoveNothing(t, t);
  }

  lemma {:induction false} ToLoadNothing(oldTable: Table, newTable: Table)
    requires forall m :: m in newTable ==> !NeedsLoad(oldTable, m)
    ensures ToLoad(oldTable, newTable) == []
    decreases |newTable|
  {
    if newTable != [] {
      assert newTable[0] in newTable;
      assert forall m :: m in newTable[1..] ==> m in newTable;
      ToLoadNothing(oldTable, newTable[1..]);
    }
  }

  lemma {:induction false} ToRemoveNothing(oldTable: Table, newTable: Table)
    requires forall m :: m in oldTable ==> Lookup(newTable, m.id).Some?
    ensures ToRemove(oldTable, newTable) == []
    decreases |oldTable|
  {
    if oldTable != [] {
      assert oldTable[0] in oldTable;
      assert forall m :: m in oldTable[1..] ==> m in oldTable;
      ToRemoveNothing(oldTable[1..], newTable);
    }
  }

  // ---------------------------------------------------------------------------------------------
  // Folding the lifecycle operations over a list

  /** The result of starting a batch of loads: the step, and the manifests whose script was appended. */
  datatype Batch = Batch(step: Step, pending: seq<Manifest>)

  /** Synchronous parts of `loadPlugin` for each manifest in turn, as `forEach`/`map` call them. */
  function LoadEach(env: Env, s: State, ms: seq<Manifest>): (r: Batch)
    ensures !ArePluginsEnabled(env.config) ==> r == Batch(Step(s, []), [])
    ensures r.step.state.plugins == s.plugins
    ensures ArePluginsEnabled(env.config) ==> forall m :: m in ms ==> m.id in r.step.state.loaded
    ensures forall id :: id in s.loaded ==> id in r.step.state.loaded
    ensures forall id :: id in r.step.state.loaded ==> id in s.loaded || Lookup(ms, id).Some?
    ensures forall id :: id in s.loaded && Lookup(ms, id).None? ==> r.step.state.loaded[id] == s.loaded[id]
    ensures forall m :: m in r.pending ==> m in ms
    ensures forall e :: e in r.step.events ==> e.RemoveWebappPlugin? || e.AppendScript?
    decreases |ms|
  {
    if ms == [] then Batch(Step(s, []), [])
    else
      var first := LoadPlugin(env, s, ms[0]);
      var appended := ArePluginsEnabled(env.config) && !AlreadyLoaded(s, ms[0]);
      var rest := LoadEach(env, first.state, ms[1..]);
      LoadPluginFrame(env, s, ms[0]);
      LookupTail(ms);
      Batch(Step(rest.step.state, first.events + rest.step.events),
            (if appended then [ms[0]] else []) + rest.pending)
  }

  lemma LookupTail(ms: seq<Manifest>)
    requires ms != []
    ensures forall id :: Lookup(ms[1..], id).Some? ==> Lookup(ms, id).Some?
    ensures forall id :: Lookup(ms, id).None? ==> id != ms[0].id && Lookup(ms[1..], id).None?
    ensures forall m :: m in ms ==> m == ms[0] || m in ms[1..]
  {
  }

  /** What one `loadPlugin` does to the recorded manifests: it may add or replace its own id only. */
  lemma LoadPluginFrame(env: Env, s: State, m: Manifest)
    ensures var r := LoadPlugin(env, s, m).state;
            && (forall id :: id in s.loaded ==> id in r.loaded)
            && (ArePluginsEnabled(env.config) ==> m.id in r.loaded)
            && (forall id :: id in r.loaded ==> id in s.loaded || id == m.id)
            && (forall id :: id in s.loaded && id != m.id ==> r.loaded[id] == s.loaded[id])
            && r.plugins == s.plugins
  {
  }

  /** `removePlugin` for each manifest in turn. */
  function RemoveEach(s: State, ms: seq<Manifest>): (r: Step)
    ensures r.state.loaded.Keys == s.loaded.Keys - (set m | m in ms :: m.id)
    ensures forall id :: id in r.state.loaded ==> r.state.loaded[id] == s.loaded[id]
    ensures r.state.plugins == s.plugins
    ensures forall e :: e in r.events ==> IsRemovalEffect(e)
    decreases |ms|
  {
    if ms == [] then Step(s, [])
    else
      var first := RemovePlugin(s, ms[0]);
      var rest := RemoveEach(first.state, ms[1..]);
      assert forall m :: m in ms[1..] ==> m in ms;
      assert ms == [ms[0]] + ms[1..];
      Step(rest.state, first.events + rest.events)
  }

  /** Each pending load settles, in turn, with the outcome its bundle has. */
  function SettleEach(s: State, pending: seq<Manifest>, outcome: Manifest -> BundleOutcome): (r: Step)
    ensures r.state.loaded == s.loaded && r.state.scripts == s.scripts
    ensures forall e :: e in r.events ==> e.Uninitialize? || e.Initialize? || e.LogError?
    ensures forall m :: m in pending && outcome(m) == FailsToLoad ==> LogError(LoadErrorMessage(m)) in r.events
    ensures forall m :: m in pending && outcome(m).Executes? && outcome(m).registered.Some?
                        && outcome(m).registered.value.hasInitialize ==>
              Initialize(m.id, outcome(m).registered.value) in r.events
    decreases |pending|
  {
    if pending == [] then Step(s, [])
    else
      var first := SettleLoad(s, pending[0], outcome(pending[0]));
      var rest := SettleEach(first.state, pending[1..], outcome);
      assert forall m :: m in pending ==> m == pending[0] || m in pending[1..];
      Step(rest.state, first.events + rest.events)
  }

  // ---------------------------------------------------------------------------------------------
  // initializePlugins

  /** What `getPlugins` yields: the transport error, or the (possibly null) list of manifests. */
  datatype FetchResult = FetchError(message: string) | Fetched(data: Option<seq<Manifest>>)

  /**
   * `initializePlugins`: when enabled, fetch; on error log and stop; on a null or empty list stop;
   * otherwise start every load, let every load settle (a failed one is only logged), and send the
   * initialization telemetry once, after all of them.
   */
  function InitializePlugins(env: Env, s: State, fetched: FetchResult, outcome: Manifest -> BundleOutcome): (r: Step)
    ensures !ArePluginsEnabled(env.config) ==> r == Step(s, [])
    ensures fetched.FetchError? ==> r.state == s && forall e :: e in r.events ==> !e.TrackPluginInitialization?
    ensures fetched.Fetched? && (fetched.data.None? || fetched.data.value == []) ==>
              r.state == s && forall e :: e in r.events ==> !e.TrackPluginInitialization?
    ensures ArePluginsEnabled(env.config) && fetched.Fetched? && fetched.data.Some? && fetched.data.value != [] ==>
              var data := fetched.data.value;
              && |r.events| >= 2
              && r.events[0] == ReceivedWebappPlugins(fetched.data)
              && r.events[|r.events| - 1] == TrackPluginInitialization(data)
              && (forall i :: 0 <= i < |r.events| - 1 ==> !r.events[i].TrackPluginInitialization?)
              && (forall m :: m in data ==> m.id in r.state.loaded)
              && (forall id :: id in s.loaded ==> id in r.state.loaded)
              && (forall id :: id in r.state.loaded ==> id in s.loaded || Lookup(data, id).Some?)
              && (forall i :: 0 <= i < |data| && FirstOfItsId(data, i) && !AlreadyLoaded(s, data[i]) ==>
                    && (outcome(data[i]) == FailsToLoad ==>
                          LogError(LoadErrorMessage(data[i])) in r.events[..|r.events| - 1])
                    && (outcome(data[i]).Executes? && outcome(data[i]).registered.Some?
                        && outcome(data[i]).registered.value.hasInitialize ==>
                          Initialize(data[i].id, outcome(data[i]).registered.value) in r.events[..|r.events| - 1]))
  {
    if !ArePluginsEnabled(env.config) then Step(s, [])
    else
      match fetched
      case FetchError(message) => Step(s, [LogError(message)])
      case Fetched(data) =>
        var received := [ReceivedWebappPlugins(data)];
        if data.None? || |data.value| == 0 then Step(s, received)
        else
          var run := LoadAndSettle(env, s, data.value, outcome);
          FreshBundlesSettle(env, s, data.value, outcome);
          var attempts := received + run.events;
          assert forall e :: e in attempts ==> !e.TrackPluginInitialization?;
          LastOnly(attempts, TrackPluginInitialization(data.value));
          assert (attempts + [TrackPluginInitialization(data.value)])[..|attempts|] == attempts;
          Step(run.state, attempts + [TrackPluginInitialization(data.value)])
  }

  /**
   * The `Promise.all` of `initializePlugins`: every load is started, then every appended bundle
   * settles; a failed one is only logged.
   */
  function LoadAndSettle(env: Env, s: State, data: seq<Manifest>, outcome: Manifest -> BundleOutcome): (r: Step)
    requires ArePluginsEnabled(env.config)
    ensures forall e :: e in r.events ==> !e.TrackPluginInitialization?
    ensures forall m :: m in data ==> m.id in r.state.loaded
    ensures forall id :: id in s.loaded ==> id in r.state.loaded
    ensures forall id :: id in r.state.loaded ==> id in s.loaded || Lookup(data, id).Some?
  {
    var loads := LoadEach(env, s, data);
    var settled := SettleEach(loads.step.state, loads.pending, outcome);
    NoTrackInAttempts([], loads.step.events, settled.events);
    assert [] + loads.step.events + settled.events == loads.step.events + settled.events;
    Step(settled.state, loads.step.events + settled.events)
  }

  /**
   * Every bundle `LoadAndSettle` appends settles: the first manifest of each id that was not loaded
   * with the same bundle path has its failure logged, or the object it registers initialized.
   */
  lemma FreshBundlesSettle(env: Env, s: State, data: seq<Manifest>, outcome: Manifest -> BundleOutcome)
    requires ArePluginsEnabled(env.config)
    ensures var r := LoadAndSettle(env, s, data, outcome);
            forall i :: 0 <= i < |data| && FirstOfItsId(data, i) && !AlreadyLoaded(s, data[i]) ==>
              && (outcome(data[i]) == FailsToLoad ==> LogError(LoadErrorMessage(data[i])) in r.events)
              && (outcome(data[i]).Executes? && outcome(data[i]).registered.Some?
                  && outcome(data[i]).registered.value.hasInitialize ==>
                    Initialize(data[i].id, outcome(data[i]).registered.value) in r.events)
  {
    var loads := LoadEach(env, s, data);
    var settled := SettleEach(loads.step.state, loads.pending, outcome);
    assert LoadAndSettle(env, s, data, outcome).events == loads.step.events + settled.events;
    FreshAllPending(env, s, data);
  }

  /** No manifest before position `i` carries the id of `ms[i]`. */
  predicate FirstOfItsId(ms: seq<Manifest>, i: int)
    requires 0 <= i < |ms|
  {
    forall j :: 0 <= j < i ==> ms[j].id != ms[i].id
  }

  /**
   * When plugins are on, the first manifest of each id that is not already loaded with the same
   * bundle path has its script appended, so it is among the loads that will settle.
   */
  lemma {:induction false} LoadEachAppendsFresh(env: Env, s: State, ms: seq<Manifest>, i: int)
    requires ArePluginsEnabled(env.config)
    requires 0 <= i < |ms| && FirstOfItsId(ms, i) && !AlreadyLoaded(s, ms[i])
    ensures ms[i] in LoadEach(env, s, ms).pending
    decreases |ms|
  {
    if i > 0 {
      var first := LoadPlugin(env, s, ms[0]);
      var tail := ms[1..];
      assert tail[i - 1] == ms[i];
      assert FirstOfItsId(tail, i - 1) by {
        forall j | 0 <= j < i - 1
          ensures tail[j].id != tail[i - 1].id
        {
          assert tail[j] == ms[j + 1];
        }
      }
      assert ms[0].id != ms[i].id;
      LoadPluginFrame(env, s, ms[0]);
      assert !AlreadyLoaded(first.state, ms[i]);
      LoadEachAppendsFresh(env, first.state, tail, i - 1);
    }
  }

  lemma FreshAllPending(env: Env, s: State, ms: seq<Manifest>)
    requires ArePluginsEnabled(env.config)
    ensures forall i :: 0 <= i < |ms| && FirstOfItsId(ms, i) && !AlreadyLoaded(s, ms[i]) ==>
              ms[i] in LoadEach(env, s, ms).pending
  {
    forall i | 0 <= i < |ms| && FirstOfItsId(ms, i) && !AlreadyLoaded(s, ms[i])
      ensures ms[i] in LoadEach(env, s, ms).pending
    {
      LoadEachAppendsFresh(env, s, ms, i);
    }
  }

  lemma NoTrackInAttempts(received: seq<Event>, loads: seq<Event>, settled: seq<Event>)
    requires forall e :: e in received ==> e.ReceivedWebappPlugins?
    requires forall e :: e in loads ==> e.RemoveWebappPlugin? || e.AppendScript?
    requires forall e :: e in settled ==> e.Uninitialize? || e.Initialize? || e.LogError?
    ensures forall e :: e in received + loads + settled ==> !e.TrackPluginInitialization?
  {
  }

  lemma LastOnly(evs: seq<Event>, last: Event)
    requires forall e :: e in evs ==> !e.TrackPluginInitialization?
    ensures forall i :: 0 <= i < |evs + [last]| - 1 ==> !(evs + [last])[i].TrackPluginInitialization?
  {
    forall i | 0 <= i < |evs + [last]| - 1
      ensures !(evs + [last])[i].TrackPluginInitialization?
    {
      assert (evs + [last])[i] == evs[i];
    }
  }

  // ---------------------------------------------------------------------------------------------
  // loadPluginsIfNecessary

  /**
   * The synchronous course of `loadPluginsIfNecessary` once the fetch has answered: `oldTable` is the
   * store's table before the fetch; the new table is the fetched list. Every load in the diff is
   * started (each runs its synchronous part at once), then every removal runs.
   */
  function LoadPluginsIfNecessary(env: Env, s: State, oldTable: Table, fetched: FetchResult): (r: Step)
    ensures !ArePluginsEnabled(env.config) ==> r == Step(s, [])
    ensures fetched.FetchError? ==> r.state == s
    ensures ArePluginsEnabled(env.config) && fetched.Fetched? ==>
              var newTable := fetched.data.GetOr([]);
              && (forall m :: m in newTable && NeedsLoad(oldTable, m) ==> m.id in r.state.loaded)
              && (forall o :: o in oldTable && Lookup(newTable, o.id).None? ==> o.id !in r.state.loaded)
              && (forall id :: id in r.state.loaded ==> id in s.loaded || Lookup(newTable, id).Some?)
              && r.state.plugins == s.plugins
    ensures ArePluginsEnabled(env.config) && fetched.Fetched? ==>
              var newTable := fetched.data.GetOr([]);
              && |r.events| >= 1 && r.events[0] == ReceivedWebappPlugins(fetched.data)
              && (forall id :: id in s.loaded && (forall o :: o in oldTable && Lookup(newTable, o.id).None? ==> o.id != id) ==>
                    id in r.state.loaded)
              && (forall id :: id in s.loaded
                               && (forall m :: m in newTable && NeedsLoad(oldTable, m) ==> m.id != id)
                               && (forall o :: o in oldTable && Lookup(newTable, o.id).None? ==> o.id != id) ==>
                    id in r.state.loaded && r.state.loaded[id] == s.loaded[id])
  {
    if !ArePluginsEnabled(env.config) then Step(s, [])
    else
      match fetched
      case FetchError(message) => Step(s, [LogError(message)])
      case Fetched(data) =>
        var newTable := data.GetOr([]);
        var plan := Diff(oldTable, newTable);
        var loads := LoadEach(env, s, plan.toLoad);
        var removes := RemoveEach(loads.step.state, plan.toRemove);
        assert forall id :: id in removes.state.loaded ==> id in loads.step.state.loaded;
        Step(removes.state, [ReceivedWebappPlugins(data)] + loads.step.events + removes.events)
  }

  /**
   * Reconciling against an empty list removes every plugin the old table listed and loads nothing.
   */
  lemma EmptyListRemovesAll(env: Env, s: State, oldTable: Table)
    requires ArePluginsEnabled(env.config)
    ensures var r := LoadPluginsIfNecessary(env, s, oldTable, Fetched(Some([])));
            && (forall o :: o in oldTable ==> o.id !in r.state.loaded)
            && r.state.loaded.Keys <= s.loaded.Keys
            && forall e :: e in r.events ==> !e.AppendScript?
  {
    var plan := Diff(oldTable, []);
    assert plan.toLoad == [];
    var loads := LoadEach(env, s, plan.toLoad);
    assert loads.step.events == [];
  }

  // ---------------------------------------------------------------------------------------------
  // Every recorded plugin keeps a script element, across the batch operations

  lemma {:induction false} LoadEachKeepsScriptsCoverLoaded(env: Env, s: State, ms: seq<Manifest>)
    requires ScriptsCoverLoaded(s)
    ensures ScriptsCoverLoaded(LoadEach(env, s, ms).step.state)
    decreases |ms|
  {
    if ms != [] {
      var first := LoadPlugin(env, s, ms[0]);
      LoadPluginKeepsScriptsCoverLoaded(env, s, ms[0]);
      LoadEachKeepsScriptsCoverLoaded(env, first.state, ms[1..]);
    }
  }

  lemma {:induction false} RemoveEachKeepsScriptsCoverLoaded(s: State, ms: seq<Manifest>)
    requires ScriptsCoverLoaded(s)
    ensures ScriptsCoverLoaded(RemoveEach(s, ms).state)
    decreases |ms|
  {
    if ms != [] {
      var first := RemovePlugin(s, ms[0]);
      RemovePluginKeepsScriptsCoverLoaded(s, ms[0]);
      RemoveEachKeepsScriptsCoverLoaded(first.state, ms[1..]);
    }
  }

  /**
   * Both batch operations keep the invariant that every recorded plugin has a script element,
   * whatever the fetch yields and however the bundles settle.
   */
  lemma BatchesKeepScriptsCoverLoaded(env: Env, s: State, oldTable: Table, fetched: FetchResult,
                                      outcome: Manifest -> BundleOutcome)
    requires ScriptsCoverLoaded(s)
    ensures ScriptsCoverLoaded(InitializePlugins(env, s, fetched, outcome).state)
    ensures ScriptsCoverLoaded(LoadPluginsIfNecessary(env, s, oldTable, fetched).state)
  {
    if ArePluginsEnabled(env.config) && fetched.Fetched? {
      var data := fetched.data;
      if data.Some? && data.value != [] {
        var loads := LoadEach(env, s, data.value);
        LoadEachKeepsScriptsCoverLoaded(env, s, data.value);
        var settled := SettleEach(loads.step.state, loads.pending, outcome);
        assert settled.state.loaded == loads.step.state.loaded && settled.state.scripts == loads.step.state.scripts;
      }
      var plan := Diff(oldTable, data.GetOr([]));
      var loads := LoadEach(env, s, plan.toLoad);
      LoadEachKeepsScriptsCoverLoaded(env, s, plan.toLoad);
      RemoveEachKeepsScriptsCoverLoaded(loads.step.state, plan.toRemove);
    }
  }

  /**
   * A reconciliation where one plugin's version changed and another's did not: only the changed
   * one is loaded, nothing is removed.
   */
  lemma DiffOfVersionBump(a: Manifest, a2: Manifest, b: Manifest)
    requires a2.id == a.id && a2.version != a.version && b.id != a.id
    ensures Diff([a, b], [a2, b]) == Plan([a2], [])
  {
    var oldTable, newTable := [a, b], [a2, b];
    assert Lookup(oldTable, a2.id) == Some(a);
    assert Lookup(oldTable, b.id) == Some(b) by { assert oldTable[1..] == [b]; }
    assert Lookup(newTable, a.id) == Some(a2);
    assert Lookup(newTable, b.id) == Some(b) by { assert newTable[1..] == [b]; }
    assert ToLoad(oldTable, newTable) == [a2] + ToLoad(oldTable, [b]) by { assert newTable[1..] == [b]; }
    assert ToLoad(oldTable, [b]) == [] by { assert [b][1..] == []; }
    assert ToRemove(oldTable, newTable) == ToRemove([b], newTable) by { assert oldTable[1..] == [b]; }
    assert ToRemove([b], newTable) == [] by { assert [b][1..] == []; }
  }

  /**
   * Plugins are disabled exactly when the server setting is not the string "true", or performance
   * debugging and the disable-client-plugins preference are both on; then loading, initializing
   * and reconciling change nothing and have no effect.
   */
  lemma DisabledIsInert(env: Env, s: State, m: Manifest, oldTable: Table, fetched: FetchResult,
                        outcome: Manifest -> BundleOutcome)
    ensures !ArePluginsEnabled(env.config) <==>
              env.config.pluginsEnabled != "true" || (env.config.performanceDebugging && env.config.disableClientPlugins)
    ensures !ArePluginsEnabled(env.config) ==>
              && LoadPlugin(env, s, m) == Step(s, [])
              && InitializePlugins(env, s, fetched, outcome) == Step(s, [])
              && LoadPluginsIfNecessary(env, s, oldTable, fetched) == Step(s, [])
  {
  }
}

=== FILE: text.dfy ===
/**
 * The JavaScript string primitives the modelled code relies on, over `seq<char>`:
 * `includes`, `indexOf`, `replace` with a string pattern (first occurrence only),
 * `startsWith`, `trim`, `trimEnd` and an ASCII-only `toLowerCase`.
 */
module Text {

  /** The characters `String.prototype.trim` removes: ECMAScript's WhiteSpace and LineTerminator sets. */
  predicate IsWhitespace(c: char) {
    || c == ' ' || c == '\t' || c == '\n' || c == '\r'
    || c == '\U{000B}' || c == '\U{000C}' || c == '\U{00A0}' || c == '\U{1680}'
    || ('\U{2000}' <= c <= '\U{200A}')
    || c == '\U{2028}' || c == '\U{2029}' || c == '\U{202F}' || c == '\U{205F}'
    || c == '\U{3000}' || c == '\U{FEFF}'
  }

  predicate AllWhitespace(s: string) {
    forall i :: 0 <= i < |s| ==> IsWhitespace(s[i])
  }

  /** Neither end of `s` is whitespace: the shape of every `trim` result. */
  predicate Trimmed(s: string) {
    |s| == 0 || (!IsWhitespace(s[0]) && !IsWhitespace(s[|s| - 1]))
  }

  /** `s.startsWith(prefix)` */
  predicate StartsWith(s: string, prefix: string) {
    |prefix| <= |s| && s[..|prefix|] == prefix
  }

  /** `pat` occurs in `s` starting at index `i`. */
  predicate OccursAt(s: string, pat: string, i: int) {
    0 <= i && i + |pat| <= |s| && s[i..i + |pat|] == pat
  }

  /** `s.includes(pat)` */
  predicate Contains(s: string, pat: string) {
    exists i :: 0 <= i <= |s| - |pat| && OccursAt(s, pat, i)
  }

  /** The first occurrence of `pat` in `s` at or after `from`, or -1. */
  function FindFrom(s: string, pat: string, from: nat): (r: int)
    ensures r == -1 || (from <= r && OccursAt(s, pat, r))
    ensures forall j :: from <= j && (r == -1 || j < r) ==> !OccursAt(s, pat, j)
    decreases |s| - from
  {
    if from + |pat| > |s| then -1
    else if s[from..from + |pat|] == pat then from
    else FindFrom(s, pat, from + 1)
  }

  /** `s.indexOf(pat)`: the first index where `pat` occurs, or -1 when it does not occur. */
  function IndexOf(s: string, pat: string): (r: int)
    ensures r == -1 <==> !Contains(s, pat)
    ensures r != -1 ==> OccursAt(s, pat, r)
    ensures forall j :: 0 <= j < r ==> !OccursAt(s, pat, j)
  {
    FindFrom(s, pat, 0)
  }

  /**
   * `s.replace(pat, rep)` with a string pattern and a replacement without `$` (JavaScript would
   * expand `$&`, `$$`, `` $` `` and `$'` in it): only the first occurrence is replaced.
   */
  function ReplaceFirst(s: string, pat: string, rep: string): (r: string)
    ensures !Contains(s, pat) ==> r == s
    ensures Contains(s, pat) ==>
              var i := IndexOf(s, pat);
              0 <= i && i + |pat| <= |s| && r == s[..i] + rep + s[i + |pat|..]
  {
    var i := IndexOf(s, pat);
    if i < 0 then s else s[..i] + rep + s[i + |pat|..]
  }

  /** `s.trimStart()` */
  function TrimStart(s: string): (r: string)
    ensures |r| <= |s| && r == s[|s| - |r|..]
    ensures forall i :: 0 <= i < |s| - |r| ==> IsWhitespace(s[i])
    ensures |r| > 0 ==> !IsWhitespace(r[0])
  {
    if |s| > 0 && IsWhitespace(s[0]) then TrimStart(s[1..]) else s
  }

  /** `s.trimEnd()` */
  function TrimEnd(s: string): (r: string)
    ensures |r| <= |s| && r == s[..|r|]
    ensures forall i :: |r| <= i < |s| ==> IsWhitespace(s[i])
    ensures |r| > 0 ==> !IsWhitespace(r[|r| - 1])
  {
    if |s| > 0 && IsWhitespace(s[|s| - 1]) then TrimEnd(s[..|s| - 1]) else s
  }

  /** `s.trim()`: whitespace removed from both ends, nothing else touched. */
  function Trim(s: string): (r: string)
    ensures Trimmed(r)
    ensures r == [] <==> AllWhitespace(s)
    ensures |r| <= |s|
    ensures Trimmed(s) ==> r == s
    ensures exists k :: 0 <= k <= |s| - |r| && r == s[k..k + |r|]
                          && AllWhitespace(s[..k]) && AllWhitespace(s[k + |r|..])
  {
    var t := TrimStart(s);
    var r := TrimEnd(t);
    var k := |s| - |t|;
    assert r == [] <==> AllWhitespace(s) by { TrimSlice(s); }
    assert Trimmed(s) ==> r == s by {
      if Trimmed(s) { TrimStartOfTrimmed(s); TrimEndOfTrimmed(s); }
    }
    assert k <= |s| - |r| && r == s[k..k + |r|] && AllWhitespace(s[..k]) && AllWhitespace(s[k + |r|..]) by {
      MiddleSlice(s, k, t, r);
    }
    r
  }

  /**
   * A text whose first `k` characters are whitespace, cut to what follows them (`t`) and then to a
   * prefix `r` of that followed only by whitespace: `r` is the middle slice at `k`.
   */
  lemma MiddleSlice(s: string, k: nat, t: string, r: string)
    requires k <= |s| && t == s[k..] && forall i :: 0 <= i < k ==> IsWhitespace(s[i])
    requires |r| <= |t| && r == t[..|r|] && forall i :: |r| <= i < |t| ==> IsWhitespace(t[i])
    ensures k <= |s| - |r| && r == s[k..k + |r|]
    ensures AllWhitespace(s[..k]) && AllWhitespace(s[k + |r|..])
  {
    assert s[k + |r|..] == t[|r|..];
  }

  lemma TrimSlice(s: string)
    ensures TrimEnd(TrimStart(s)) == [] <==> AllWhitespace(s)
  {
    var t := TrimStart(s);
    if TrimEnd(t) == [] {
      assert t == [];
    }
  }

  /** Cutting trailing whitespace leaves a head untouched when the tail is not all whitespace. */
  lemma TrimEndKeepsHead(head: string, s: string)
    requires !AllWhitespace(s)
    ensures TrimEnd(head + s) == head + TrimEnd(s)
    decreases |s|
  {
    var k :| 0 <= k < |s| && !IsWhitespace(s[k]);
    if IsWhitespace(s[|s| - 1]) {
      assert (head + s)[..|head + s| - 1] == head + s[..|s| - 1];
      assert s[..|s| - 1][k] == s[k];
      TrimEndKeepsHead(head, s[..|s| - 1]);
    }
  }

  /** An all-whitespace text is cut away entirely. */
  lemma {:induction false} TrimEndAllWhitespace(s: string)
    requires AllWhitespace(s)
    ensures TrimEnd(s) == []
    decreases |s|
  {
    if |s| > 0 {
      TrimEndAllWhitespace(s[..|s| - 1]);
    }
  }

  lemma TrimEndOfTrimmed(t: string)
    requires Trimmed(t)
    ensures TrimEnd(t) == t
  {
  }

  lemma TrimStartOfTrimmed(t: string)
    requires Trimmed(t)
    ensures TrimStart(t) == t
  {
  }

  /** Trimming whitespace followed by an already-trimmed text gives back that text. */
  lemma TrimAfterWhitespace(ws: string, t: string)
    requires AllWhitespace(ws) && Trimmed(t)
    ensures Trim(ws + t) == t
  {
    TrimStartPastWhitespace(ws, t);
    TrimEndOfTrimmed(t);
  }

  lemma {:induction false} TrimStartPastWhitespace(ws: string, t: string)
    requires AllWhitespace(ws) && Trimmed(t)
    ensures TrimStart(ws + t) == t
    decreases |ws|
  {
    if ws == [] {
      assert ws + t == t;
      TrimStartOfTrimmed(t);
    } else {
      assert (ws + t)[1..] == ws[1..] + t;
      TrimStartPastWhitespace(ws[1..], t);
    }
  }

  lemma {:induction false} TrimStartSkipsWhitespace(ws: string, s: string)
    requires AllWhitespace(ws)
    ensures TrimStart(ws + s) == TrimStart(s)
    decreases |ws|
  {
    if ws == [] {
      assert ws + s == s;
    } else {
      assert (ws + s)[1..] == ws[1..] + s;
      TrimStartSkipsWhitespace(ws[1..], s);
    }
  }

  /** Leading whitespace makes no difference to `trim`. */
  lemma TrimSkipsWhitespace(ws: string, s: string)
    requires AllWhitespace(ws)
    ensures Trim(ws + s) == Trim(s)
  {
    TrimStartSkipsWhitespace(ws, s);
  }

  lemma {:induction false} TrimEndPastWhitespace(t: string, ws: string)
    requires AllWhitespace(ws) && Trimmed(t)
    ensures TrimEnd(t + ws) == t
    decreases |ws|
  {
    if ws == [] {
      assert t + ws == t;
      TrimEndOfTrimmed(t);
    } else {
      assert (t + ws)[..|t + ws| - 1] == t + ws[..|ws| - 1];
      TrimEndPastWhitespace(t, ws[..|ws| - 1]);
    }
  }

  /** Trailing whitespace after an already-trimmed text makes no difference to `trim`. */
  lemma TrimBeforeWhitespace(t: string, ws: string)
    requires AllWhitespace(ws) && Trimmed(t)
    ensures Trim(t + ws) == t
  {
    if t == [] {
      assert t + ws == ws;
      TrimSlice(ws);
    } else {
      assert (t + ws)[0] == t[0];
      assert TrimStart(t + ws) == t + ws;
      TrimEndPastWhitespace(t, ws);
    }
  }

  /** Trimming is idempotent. */
  lemma TrimIdempotent(s: string)
    ensures Trim(Trim(s)) == Trim(s)
  {
    TrimAfterWhitespace([], Trim(s));
    assert [] + Trim(s) == Trim(s);
  }

  /** ASCII lower-casing of one character. */
  function LowerChar(c: char): (r: char)
    ensures 'A' <= c <= 'Z' ==> r as int == c as int + 32
    ensures !('A' <= c <= 'Z') ==> r == c
  {
    if 'A' <= c <= 'Z' then (c as int + 32) as char else c
  }

  /** `s.toLowerCase()`, restricted to ASCII letters. */
  function ToLower(s: string): (r: string)
    ensures |r| == |s|
    ensures forall i :: 0 <= i < |s| ==> r[i] == LowerChar(s[i])
  {
    seq(|s|, i requires 0 <= i < |s| => LowerChar(s[i]))
  }

  /** Lower-casing twice is lower-casing once. */
  lemma ToLowerIdempotent(s: string)
    ensures ToLower(ToLower(s)) == ToLower(s)
  {
  }

  /** Lower-casing moves no space: a space is at the same places before and after. */
  lemma ToLowerKeepsSpaces(s: string)
    ensures forall i :: 0 <= i < |s| ==> (ToLower(s)[i] == ' ' <==> s[i] == ' ')
  {
  }

  lemma SpaceAt(s: string, i: int)
    ensures OccursAt(s, " ", i) <==> 0 <= i < |s| && s[i] == ' '
  {
    if 0 <= i < |s| {
      assert s[i..i + 1] == [s[i]];
    }
  }

  /** A string without spaces followed by a space: `indexOf(' ')` finds that separator. */
  lemma IndexOfSeparator(word: string, rest: string)
    requires ' ' !in word
    ensures IndexOf(word + " " + rest, " ") == |word|
  {
    var s := word + " " + rest;
    SpaceAt(s, |word|);
    forall j | 0 <= j < |word|
      ensures !OccursAt(s, " ", j)
    {
      SpaceAt(s, j);
      assert s[j] == word[j];
    }
  }
}

=== FILE: trial_banner.dfy ===
/**
 * The visibility rule, message choice and close action of the freemium trial-ended announcement
 * bar (components/announcement_bar/freemium_trial_ended_announcement_bar/index.tsx).
 * The hooks' results (subscription, limits, preferences, current user, usage deltas) and the
 * clock are plain values.
 */
module TrialBanner {
  import opened Wrappers

  /** A preference of the trial-end-banner category. */
  datatype Preference = Preference(name: string, value: string)

  /** The cloud subscription fields the rule reads; `trialEndAt` is in seconds since the epoch. */
  datatype Subscription = Subscription(isFreeTrial: string, trialEndAt: int)

  /**
   * Everything `shouldShowBanner` reads: the subscription (absent until fetched), whether the
   * limits are loaded (`limits[1]`), the preferences of the banner's category (absent when the
   * selector yields none), the current time in milliseconds, and whether the user is a system admin.
   */
  datatype BannerInputs = BannerInputs(
    subscription: Option<Subscription>,
    limitsLoaded: bool,
    preferences: Option<seq<Preference>>,
    nowMs: int,
    isAdmin: bool)

  /** The preference name `CloudBanners.HIDE` stands for. */
  const HideName: string := "hide"

  /** The largest magnitude, in milliseconds, a JavaScript `Date` can hold; beyond it the date is invalid. */
  const MaxDateMs: int := 8_640_000_000_000_000

  /** Some preference hides the banner: name `HideName`, value "true". */
  predicate HiddenByPreference(prefs: seq<Preference>) {
    exists i :: 0 <= i < |prefs| && prefs[i].name == HideName && prefs[i].value == "true"
  }

  /**
   * `trialEnd > now` with `trialEnd = new Date(trial_end_at * 1000)`: an out-of-range date is
   * invalid and compares false.
   */
  predicate TrialEndsAfter(trialEndAt: int, nowMs: int) {
    var endMs := trialEndAt * 1000;
    -MaxDateMs <= endMs <= MaxDateMs && endMs > nowMs
  }

  /** `shouldShowBanner`, guard by guard. */
  function ShouldShowBanner(b: BannerInputs): (r: bool)
    ensures r ==> b.isAdmin && b.limitsLoaded && b.subscription.Some? && b.preferences.Some?
    ensures r ==> b.subscription.value.isFreeTrial != "true" && b.subscription.value.trialEndAt != 0
  {
    if b.subscription.None? then false
    else if !b.limitsLoaded then false
    else if b.preferences.None? then false
    else if HiddenByPreference(b.preferences.value) then false
    else if b.subscription.value.isFreeTrial == "true" then false
    else if b.subscription.value.trialEndAt == 0 || TrialEndsAfter(b.subscription.value.trialEndAt, b.nowMs) then false
    else if !b.isAdmin then false
    else true
  }

  /**
   * The banner shows exactly when every guard passes: a subscription, loaded limits and a
   * preference list exist, no hide preference is set, the subscription is not a free trial, its
   * trial end is recorded and not in the future, and the user is an admin.
   */
  lemma ShowIffAllGuardsPass(b: BannerInputs)
    ensures ShouldShowBanner(b) <==>
              && b.subscription.Some?
              && b.limitsLoaded
              && b.preferences.Some?
              && (forall p :: p in b.preferences.value ==> !(p.name == HideName && p.value == "true"))
              && b.subscription.value.isFreeTrial != "true"
              && b.subscription.value.trialEndAt != 0
              && (b.subscription.value.trialEndAt * 1000 <= b.nowMs || b.subscription.value.trialEndAt * 1000 > MaxDateMs
                  || b.subscription.value.trialEndAt * 1000 < -MaxDateMs)
              && b.isAdmin
  {
    if b.preferences.Some? {
      var prefs := b.preferences.value;
      if HiddenByPreference(prefs) {
        var i :| 0 <= i < |prefs| && prefs[i].name == HideName && prefs[i].value == "true";
        assert prefs[i] in prefs;
      }
    }
  }

  /**
   * `handleClose`: the hide preference is saved with value "true". Saving replaces a stored
   * preference of the same name and keeps the others.
   */
  function Close(prefs: Option<seq<Preference>>): (r: seq<Preference>)
    ensures Preference(HideName, "true") in r
    ensures forall p :: p in prefs.GetOr([]) && p.name != HideName ==> p in r
    ensures forall p :: p in r ==> p == Preference(HideName, "true") || p in prefs.GetOr([])
  {
    var kept := KeepOthers(prefs.GetOr([]));
    kept + [Preference(HideName, "true")]
  }

  /** The stored preferences other than the one named `HideName`. */
  function KeepOthers(prefs: seq<Preference>): (r: seq<Preference>)
    ensures forall p :: p in r <==> p in prefs && p.name != HideName
  {
    if prefs == [] then []
    else (if prefs[0].name != HideName then [prefs[0]] else []) + KeepOthers(prefs[1..])
  }

  /**
   * Closing is sticky: once the hide preference is saved, the banner stays hidden whatever the
   * subscription, limits, clock or role.
   */
  lemma CloseIsSticky(prefs: Option<seq<Preference>>, sub: Option<Subscription>, limitsLoaded: bool, nowMs: int, isAdmin: bool)
    ensures !ShouldShowBanner(BannerInputs(sub, limitsLoaded, Some(Close(prefs)), nowMs, isAdmin))
  {
    var closed := Close(prefs);
    var k :| 0 <= k < |closed| && closed[k] == Preference(HideName, "true");
    assert HiddenByPreference(closed);
  }

  /** The text of the banner: its message id and default message. */
  datatype BannerMessage = BannerMessage(id: string, defaultMessage: string)

  const PremiumFeatures: BannerMessage := BannerMessage(
    "freemium.banner.trial_ended.premium_features",
    "Your trial has ended. Upgrade to regain access to paid features")

  const ArchivedData: BannerMessage := BannerMessage(
    "freemium.banner.trial_ended.archived_data",
    "Your trial has ended. Upgrade to regain access to archived data")

  /**
   * What the component renders: nothing unless the rule says show; then the archived-data text when
   * some usage delta is negative, the premium-features text otherwise.
   */
  function Render(b: BannerInputs, anyNegativeDelta: bool): (r: Option<BannerMessage>)
    ensures r.Some? <==> ShouldShowBanner(b)
    ensures r == Some(ArchivedData) <==> ShouldShowBanner(b) && anyNegativeDelta
    ensures r == Some(PremiumFeatures) <==> ShouldShowBanner(b) && !anyNegativeDelta
  {
    if !ShouldShowBanner(b) then None
    else if anyNegativeDelta then Some(ArchivedData)
    else Some(PremiumFeatures)
  }
}

=== FILE: wrappers.dfy ===
/** Optional values, used where the JavaScript source has `undefined` or `null`. */
module Wrappers {

  datatype Option<+T> = None | Some(value: T) {

    /** The value held, or `default` when there is none. */
    function GetOr(default: T): T {
      match this
      case Some(v) => v
      case None => default
    }
  }
}
